=== FILE: README.md ===
# hat-board control core in Dafny

This project models the control core of the hat-board status appliance (the
`oled-software` directory). The core has four parts:

- **Buttons** (`buttons.py`). Each `Button` tracks press and release from
  its pin level and keeps a repeat count. The `Buttons` group re-arms one
  shared 250 ms debounce timer on every release. When the timer fires, the
  group classifies the gesture (short, medium, long or extra_long; twice or
  trice; the `multiple_*` forms when several buttons take part). It then
  dispatches the handlers registered for that gesture.
- **LEDs** (`leds.py`). This part covers the logical colour buffer of the
  strip and the numeric fade (`fade_to`). It also covers the bounce window
  and cursor, and the bookkeeping of effects, pause, backlight and resume.
- **VCNL3040 driver** (`vcnl3040.py`). Every setter validates its argument,
  then does a read-modify-write of one bit field of CONFIG1 or CONFIG3.
  The thresholds are plain writes.
- **Proximity sensor** (`proximity_sensor.py`). Its constructor runs a
  configuration sequence, then calibrates the thresholds around the current
  reading. Each interrupt turns a reading into a "closing" or an "away"
  event.

The Dafny modules follow that structure:

| file | module | contents |
|---|---|---|
| `wrappers.dfy` | `Wrappers` | `Option` and `Result` |
| `callbacks.dfy` | `Callbacks` | the action→handler registry that buttons, the group and the sensor keep as `<action>_callback/_args/_kwargs` attributes |
| `buttons.dfy` | `Buttons` | the button state machine, classification, group evaluation, the debounce timer, routing of registrations |
| `fade.dfy` | `Fade` | the per-channel arithmetic of `fade_to`, with a loop-for-loop method and properties of the fade |
| `leds.dfy` | `Leds` | the strip state and its operations, the bounce window and cursor, and an invariant every operation keeps |
| `vcnl3040.dfy` | `Vcnl3040` | the register file, the bit fields and their masks, argument encodings, setters and reads |
| `proximity_sensor.dfy` | `ProximitySensor` | construction, calibration and interrupt dispatch |

**Modelling choices.**

- **Time.** Time is an integer number of milliseconds, passed in as `now`.
  For example 0.25 s is 250, and `press_time = -1.0` is -1000.
- **Pin level.** The pin level is a parameter `high`.
- **Timers.** A `threading.Timer` is a pending deadline (`Option<int>`).
  Re-arming a timer replaces the deadline. That gives the source's
  cancel-and-replace behaviour.
- **Threads.** A thread launch is the synchronous state update it makes.
- **Registers.** The sensor is a file of 16-bit registers indexed by
  command. It also carries the driver's `forced` flag and a log of bus
  accesses. The log lets the contracts state that a rejected argument causes
  no bus traffic.
- **Fade steps.** The float step `(r2 - r1) / fade_steps` is an exact
  `real`. Each round starts again from an integer, and an exact quotient
  that is not an integer lies at least `1/fade_steps` from one. So `int()`
  of the exact sum agrees with `int()` of the float sum for any realistic
  step count.
- **Effect defaults.** The defaults of `start_bounce` and `start_heartbeat`
  are named constants (`Leds.BounceDelayMs`, `Leds.HeartbeatOnDelayMs`
  and so on), in milliseconds.

**Behaviour of the code worth knowing:**

- `start_bounce` and `start_heartbeat` do not stop a running effect first.
- `resume_effect` is set by `pause` and never cleared.
- `resume_colors` stays set after a resume.
- `resume(0)` does not cancel a pending timed resume.
- `fade_to` does not always reach its target. Each step starts from the
  truncated value, so a slow rise can stall. A fall can also overshoot.
  See `Fade.RiseCanStall` and `Fade.FallCanOvershoot`.
- A press of exactly 500 ms is slow for the repeat count (`< 0.5`), so the
  count restarts at 1. The same press is "short" for classification
  (`<= 0.5`).
- A reading of exactly 3 counts as near.

## Model

| member | source | states |
|---|---|---|
| `Callbacks.Bind` | oled-software/buttons.py:93-96 | storing a button registration keeps the handler and both argument parts as given, `None` included; the action becomes a key and every other action keeps its entry |
| `Callbacks.Register` | oled-software/proximity_sensor.py:44-47 | a registration made through `*args, **kwargs` always stores both argument parts (never `None`), and changes no other action in the table (the actions "execute", "evaluate" and "register", which overwrite the object's own methods in the source, are not modelled) |
| `Callbacks.Execute` | oled-software/buttons.py:98-108 | an unregistered action calls nothing; a registered one calls its handler, passing exactly the argument parts that are not `None`, through the matching one of the four branches |
| `Callbacks.RegisterThenExecute` | oled-software/proximity_sensor.py:44-73 | after `register_callback`, executing that action calls the new handler with both argument parts, whatever was registered before |
| `Callbacks.RegisterIsolated` | oled-software/proximity_sensor.py:44-47 | registering one action never changes what another action executes, for actions other than "execute", "evaluate" and "register" (see "## Left out") |
| `Buttons.NewButton` | oled-software/buttons.py:18-27 | a new button is released, not pressed, with no press time, zero duration, zero presses and no handlers |
| `Buttons.Press` | oled-software/buttons.py:33-37 | a press makes the button pressed (and not released), records the press time and zeroes the duration, keeping the count |
| `Buttons.Release` | oled-software/buttons.py:39-49 | a release makes the button released, measures the duration since the press, clears the press time, adds one to the count for a press under 500 ms and restarts the count at 1 otherwise |
| `Buttons.LevelChange` | oled-software/buttons.py:52-56 | a high level on a pressed button releases it (and only then is the timer re-armed); a low level on a released button presses it; otherwise nothing changes; exactly one of pressed/released keeps holding |
| `Buttons.Reset` | oled-software/buttons.py:70-72 | reset zeroes the count and the duration and keeps the press/release state |
| `Buttons.Classify` | oled-software/buttons.py:58-68 | the threshold ladder puts every duration in exactly one bucket: short up to 500 ms, medium up to 1 s, long up to 2 s, extra_long beyond |
| `Buttons.Evaluate` | oled-software/buttons.py:74-91 | one button dispatches at most one action: the bucket of its duration for one press, `twice` for two, `trice` for three, nothing otherwise; each label appears exactly when its condition holds; the button is reset |
| `Buttons.NewGroup` | oled-software/buttons.py:111-122 | the group holds one new button per (name, pin) entry, in order, with no timer and no group handlers |
| `Buttons.FirstIndex` | oled-software/buttons.py:124-125 | the search `get` does finds nothing exactly when no button has the pin, and otherwise the first button that has it; the same search finds a button by name |
| `Buttons.Arm` | oled-software/buttons.py:130-135 | arming replaces any pending evaluation by one due 250 ms from now and changes nothing else |
| `Buttons.Find` | oled-software/buttons.py:124-125 | `get` finds nothing exactly when no button has the pin, and otherwise the first button in the list that has it |
| `Buttons.FindByName` | oled-software/buttons.py:167 | `getattr(self, btn)` finds nothing exactly when no button has the name, and otherwise the button with that name |
| `Buttons.Callback` | oled-software/buttons.py:127-128 | an edge on an unknown pin fails; otherwise the first button on that pin, and no other, sees the level change, and the timer is re-armed exactly when that change was a release |
| `Buttons.CallbackAt` | oled-software/buttons.py:124-128 | an edge on the pin of a button that no earlier button shares changes exactly that button as its own `callback` would, and re-arms the timer exactly on a release |
| `Buttons.CallbackHold` | oled-software/buttons.py:29-56 | a press and a release on a pin, seen through the group, leave the first button on that pin as one hold of that button does, with the timer due 250 ms after the release |
| `Buttons.Qualifying` | oled-software/buttons.py:138-140 | the qualifying buttons are exactly those with at least one press, listed in order |
| `Buttons.MaxOf` | oled-software/buttons.py:142-153 | `max` is an element of the list and bounds every element |
| `Buttons.ResetPressed` | oled-software/buttons.py:156-158 | exactly the buttons with a press are reset; the others are left as they are |
| `Buttons.EvaluateGroup` | oled-software/buttons.py:137-163 | with several buttons pressed, one `multiple_*` action for the longest press then the repeat action for the highest count; with one, that button's own actions; with none, nothing; exactly the pressed buttons are reset and the timer slot empties |
| `Buttons.EvaluateSingle` | oled-software/buttons.py:159-160 | the one pressed button dispatches its own actions and is the only one reset |
| `Buttons.Fire` | oled-software/buttons.py:134-135 | a timer whose deadline has passed runs the group evaluation; an absent or not-yet-due one does nothing |
| `Buttons.Register` | oled-software/buttons.py:165-171 | `multiple*` actions go to the group's registry; any other action goes to the named button's registry, and an unknown name fails |
| `Buttons.Invoke` | oled-software/buttons.py:173-183 | a group dispatch runs through the group's registry; a dispatch to a button runs through the registry of the first button with that name (its own `execute_callback`, buttons.py:98-108), and calls nothing when no button has the name |
| `Buttons.PressedMaxima` | oled-software/buttons.py:138-153 | the longest duration and the highest count over the pressed buttons are bounded by a limit exactly when every pressed button is |
| `Buttons.MultiDurationBucket` | oled-software/buttons.py:141-149 | with several buttons pressed, the group dispatches `multiple_short` exactly when every pressed button was held at most 500 ms, and likewise for medium, long and extra_long |
| `Buttons.MultiFirst` | oled-software/buttons.py:141-154 | with several buttons pressed, one or two actions follow, the duration action first |
| `Buttons.MultiRepeatBucket` | oled-software/buttons.py:151-154 | with several buttons pressed, `multiple_twice` follows exactly when the highest count is 2, `multiple_trice` exactly when it is 3, and nothing otherwise |
| `Buttons.ButtonActionsNotMultiple` | oled-software/buttons.py:86-89 | no action a single button dispatches starts with `multiple` |
| `Buttons.GroupActionsMultiple` | oled-software/buttons.py:141-154 | every action the group dispatches starts with `multiple` |
| `Buttons.DispatchRouting` | oled-software/buttons.py:165-171 | every dispatched action is looked up in the registry `register_callback` stores it in: the group's exactly for the `multiple` actions |
| `Buttons.RegisteredHandlerRuns` | oled-software/buttons.py:165-183 | after a successful registration, a dispatch of that action calls the registered handler with both argument parts |
| `Buttons.FiresOnce` | oled-software/buttons.py:130-163 | once the timer has fired, firing again does nothing until a release re-arms it |
| `Buttons.EvaluateConsumes` | oled-software/buttons.py:156-163 | an evaluation consumes every press: evaluating again dispatches nothing and changes nothing |
| `Buttons.ClickCounts` | oled-software/buttons.py:39-56 | a released button taken down and up again ends released, with the count plus one for a fast hold and 1 for a slow hold |
| `Buttons.ClicksReleased` | oled-software/buttons.py:52-56 | a series of holds leaves a released button released |
| `Buttons.ClicksAllFast` | oled-software/buttons.py:45-46 | a series of fast holds adds its length to the count |
| `Buttons.ClicksSinceSlow` | oled-software/buttons.py:45-48 | after the last slow hold the count is the number of holds from that one on, whatever came before |
| `Fade.Trunc` | oled-software/leds.py:138-140 | `int()` truncates toward zero: the result is within one of the value, on the zero side |
| `Fade.Clamp` | oled-software/leds.py:138-140 | `max(0, min(255, n))` is in 0..255, is `n` when `n` is, and saturates at either end |
| `Fade.Next` | oled-software/leds.py:138-140 | one step of a channel always lands in 0..255 |
| `Fade.After` | oled-software/leds.py:127-140 | after at least one step a channel is in 0..255 |
| `Fade.FadeColor` | oled-software/leds.py:127-142 | after at least one step a pixel is in range |
| `Fade.Faded` | oled-software/leds.py:127-142 | after `k` rounds the targeted pixels are `k` steps along their fades and the rest are untouched |
| `Fade.StepsTaken` | oled-software/leds.py:127-148 | no round runs for a non-positive step count, one runs when breaking is allowed and no effect runs, all of them otherwise |
| `Fade.Raised` | oled-software/leds.py:107-117 | the step-size loop raises nothing exactly when there are no targets, or the step count is non-zero and every target has a pixel; it raises `ZeroDivisionError` exactly for a zero step count with pixels and targets present |
| `Fade.FadeResult` | oled-software/leds.py:99-150 | a fade keeps the buffer length, never touches pixels past the targets, leaves targeted pixels in range when steps are positive, and changes nothing for a non-positive step count |
| `Fade.FadeColorStep` | oled-software/leds.py:137-142 | each round moves a pixel exactly one step further, from the truncated value of the round before |
| `Fade.RoundsDoneIsFaded` | oled-software/leds.py:127-142 | a buffer that is `k` rounds into the fade is the `k`-round fade |
| `Fade.Round` | oled-software/leds.py:128-142 | one pass of the inner loop takes every targeted pixel one step further |
| `Fade.FadeTo` | oled-software/leds.py:99-150 | the two loops of `fade_to` raise exactly the error the step-size loop raises, and otherwise leave the buffer `FadeResult` describes |
| `Fade.RisingStep` | oled-software/leds.py:138-140 | a non-negative step never lowers an in-range channel and raises it by at most the step |
| `Fade.FallingStep` | oled-software/leds.py:138-140 | a negative step never raises an in-range channel and, above zero, lowers it by at least the step |
| `Fade.LineIsLinear` | oled-software/leds.py:115-117 | the exact fade line after `k` steps is the start plus `k` step sizes |
| `Fade.Rising` | oled-software/leds.py:127-140 | fading up, a channel never decreases and never rises above the exact line |
| `Fade.LineReachesTarget` | oled-software/leds.py:115-117 | `fade_steps` exact steps of `(target - start) / fade_steps` reach the target |
| `Fade.RisingFade` | oled-software/leds.py:127-152 | fading up, every step lies between the start and the target |
| `Fade.Falling` | oled-software/leds.py:127-140 | fading down, a channel never increases, stays in 0..start, and stays on or below the exact line until it reaches zero |
| `Fade.FallingEndsAtOrBelow` | oled-software/leds.py:127-152 | a complete fade down ends at or below its target, or at zero |
| `Fade.FadeToSelf` | oled-software/leds.py:138-140 | a zero step leaves an in-range channel where it is |
| `Fade.RiseCanStall` | oled-software/leds.py:115-152 | fading 0 to 10 over 50 steps never leaves 0: the target is not reached |
| `Fade.FallCanOvershoot` | oled-software/leds.py:115-152 | fading 10 to 5 over 3 steps ends at 4: the target is passed |
| `Fade.FadeOntoSelf` | oled-software/leds.py:99-150 | fading an in-range buffer onto itself changes nothing |
| `Fade.ColorFadeToSelf` | oled-software/leds.py:127-142 | an in-range pixel faded towards itself stays put |
| `Fade.ZeroStep` | oled-software/leds.py:115-117 | the step size towards the start colour is zero |
| `Fade.FadeToBlackIsBlack` | oled-software/leds.py:99-150 | a complete fade of an in-range buffer to black ends all black |
| `Fade.ChannelToZero` | oled-software/leds.py:127-140 | a complete fade of one in-range channel to zero ends at zero |
| `Fade.ChannelFullFade` | oled-software/leds.py:127-140 | a complete fade of one in-range channel rises to between its start and its target, or falls to at or below both unless it stops at zero |
| `Fade.FullFadeTowards` | oled-software/leds.py:99-150 | a complete fade of an in-range buffer, with no break, moves every targeted pixel towards its target channel by channel |
| `Leds.Uniform` | oled-software/leds.py:44 | `[color] * n` has `n` entries, all equal to the colour |
| `Leds.NewStrip` | oled-software/leds.py:10-39 | a new strip is all black, valid, with the cursor at 0 moving up, nothing running, recorded or pending, and the backlight off |
| `Leds.Fill` | oled-software/leds.py:43-45 | `fill` sets every one of the N entries to the colour and changes nothing else |
| `Leds.Clear` | oled-software/leds.py:84-86 | `clear` sets every entry to black and changes nothing else |
| `Leds.FadeTo` | oled-software/leds.py:99-150 | `fade_to` raises exactly when its step-size loop does; otherwise it changes only the buffer, only the first `len(targets)` entries, and leaves them in range; when every round runs, each targeted entry of an in-range buffer moves towards its target channel by channel |
| `Leds.FadeToTowards` | oled-software/leds.py:115-150 | a fade that is not broken off after its first round moves every targeted in-range entry towards its target |
| `Leds.FillFade` | oled-software/leds.py:47-49 | on a valid strip `fill_fade` never raises, changes only the buffer and leaves every entry in range; from an in-range buffer every channel of every entry moves towards the colour: a rise ends between the old value and the colour's, a fall ends at or below both unless it stops at zero |
| `Leds.FillFadeTowards` | oled-software/leds.py:47-49 | a full default fade of an in-range buffer to one colour moves every channel of every entry towards that colour |
| `Leds.FillFadeBlack` | oled-software/leds.py:47-49 | fading an in-range strip to black leaves it all black |
| `Leds.StopEffect` | oled-software/leds.py:194-195 | `stop_effect` clears the running flag and nothing else |
| `Leds.StartBounce` | oled-software/leds.py:186-192 | the bounce is recorded with its arguments (the default colour for a missing one) and runs; nothing else changes, so a running effect is not stopped first |
| `Leds.StartHeartbeat` | oled-software/leds.py:226-232 | the heartbeat is recorded with its arguments (the default colour for a missing one) and runs; nothing else changes |
| `Leds.SyncEffectOn` | oled-software/leds.py:235-237 | the sync method and value are recorded and nothing else changes |
| `Leds.Restart` | oled-software/leds.py:77-80 | the recorded effect restarts with its recorded arguments; with none recorded nothing happens |
| `Leds.Pause` | oled-software/leds.py:51-55 | `pause` stops the effect, sets the resume flag when an effect was running (never clears it), and snapshots the buffer |
| `Leds.Backlight` | oled-software/leds.py:57-65 | with the backlight on, nothing happens; otherwise the strip is paused, faded towards the given colour (the default backlight colour when none is given), every entry in range, and marked backlit |
| `Leds.ResumeNow` | oled-software/leds.py:73-82 | `resume(0)` on a valid strip never raises and changes only the buffer, the backlight flag (now off) and the running flag; with the resume flag set it fades an in-range buffer to all black and restarts the recorded effect; otherwise it fades every snapshot entry towards its snapshot colour, leaves the entries past the snapshot alone and keeps the running flag |
| `Leds.ResumeFades` | oled-software/leds.py:74-82 | the fade `resume(0)` makes ends all black for an effect and moves every entry towards its snapshot colour otherwise |
| `Leds.Resume` | oled-software/leds.py:67-82 | a positive timeout replaces any pending resume with one due after the timeout; otherwise it resumes at once |
| `Leds.FireResumeTimer` | oled-software/leds.py:71-72 | a due timer empties its slot and resumes at once; an absent or not-yet-due one does nothing |
| `Leds.BacklightIdempotent` | oled-software/leds.py:57-65 | a second backlight while the first is on changes nothing |
| `Leds.PauseThenResumeRestores` | oled-software/leds.py:51-82 | with no effect involved, pause followed by `resume(0)` restores the pre-pause buffer exactly |
| `Leds.PauseThenResumeRestarts` | oled-software/leds.py:51-82 | pausing a running effect and resuming restarts the same effect with the same arguments on an all-black strip |
| `Leds.ManualResumeKeepsTimer` | oled-software/leds.py:67-82 | `resume(0)` does not cancel a pending timed resume |
| `Leds.TimedResumeReplaces` | oled-software/leds.py:68-72 | a second timed resume cancels and replaces the first, so at most one is ever pending |
| `Leds.TimedResumeFires` | oled-software/leds.py:67-82 | a timed resume does nothing before its deadline, and once due it is `resume(0)` on the strip as it was |
| `Leds.ClampIndex` | oled-software/leds.py:158-163 | the clamped index is non-negative, below the LED count when there is an LED, and the index itself when it is on the strip |
| `Leds.HalfIsHalving` | oled-software/leds.py:161 | half brightness of an in-range colour is integer halving of each channel, and stays in range |
| `Leds.PyIndex` | oled-software/leds.py:165 | a Python index from -n to n-1 selects a position on the list |
| `Leds.Window` | oled-software/leds.py:156-165 | building the bounce window raises `IndexError` exactly when one of its five indices falls off the list, and otherwise keeps the length |
| `Leds.WindowShape` | oled-software/leds.py:156-165 | with the cursor on the strip, the window is the colour at the cursor, half of it one away, black two away, and the old buffer everywhere else |
| `Leds.BounceWindow` | oled-software/leds.py:156-165 | with the cursor on a strip of the right length, the window `bounce` builds is the distance-based shape around the cursor |
| `Leds.BounceTick` | oled-software/leds.py:155-176 | a bounce tick fails exactly when its window does; with the cursor on the strip it succeeds and leaves the breakable ten-step fade to the distance-based window; it moves the cursor one step in its direction, turns round exactly when the new index is 0 or the last, and changes only the buffer, cursor and direction |
| `Leds.BounceIgnoresFadeArgs` | oled-software/leds.py:155-167 | the fade time and step count given to `bounce` make no difference |
| `Leds.NewStripBounces` | oled-software/leds.py:23-25 | a new strip of two or more LEDs starts in the bouncing invariant |
| `Leds.BounceTickKeepsBouncing` | oled-software/leds.py:169-176 | on a valid bouncing strip a tick never raises and keeps the strip valid and bouncing; the direction flips exactly when the cursor lands on either end |
| `Leds.SingleLedBounceFails` | oled-software/leds.py:155-176 | on a one-LED strip the cursor walks off after one tick and the second tick raises `IndexError` |
| `Leds.CursorIsTriangle` | oled-software/leds.py:169-176 | the index rule of `bounce`, applied `k` times from index 0 heading up, gives a triangle wave of period `2(n-1)` |
| `Leds.Launched` | oled-software/leds.py:179-192 | a new strip after `start_bounce` with its defaults is valid, running, and has its cursor at 0 heading up |
| `Leds.TicksFollowCursor` | oled-software/leds.py:155-181 | from a new strip of two or more LEDs set bouncing by `start_bounce`, `k` calls of `bounce` all succeed, keep the strip valid and bouncing, and leave the cursor where the index rule puts it |
| `Leds.BounceIsTriangle` | oled-software/leds.py:155-181 | from a new strip of `n >= 2` LEDs set bouncing, the cursor after `k` calls of `bounce` is at the triangle wave of period `2(n-1)`, heading the way the wave goes |
| `Leds.OpKeepsValid` | oled-software/leds.py:43-237 | every operation keeps a valid strip valid and never clears the resume flag; only `fade_to` and a bounce tick can raise |
| `Vcnl3040.CodesDistinct` | oled-software/vcnl3040.py:6-13 | different commands address different registers |
| `Vcnl3040.Open` | oled-software/vcnl3040.py:90-96 | a new driver holds whatever the chip holds, is not in forced mode, and has made no bus access |
| `Vcnl3040.MaskLayout` | oled-software/vcnl3040.py:18-87 | every mask clears exactly `width` bits starting at its field's position |
| `Vcnl3040.FieldsDisjoint` | oled-software/vcnl3040.py:18-87 | any two different fields the driver writes share no bit |
| `Vcnl3040.SetField` | oled-software/vcnl3040.py:176-180 | a read-modify-write of a fitting code makes the field read back as the code, keeps every other bit of every register, and logs one read and one write of that register |
| `Vcnl3040.FieldUpdate` | oled-software/vcnl3040.py:176-178 | masking the register and or-ing in the shifted code reads back as the code and keeps the bits outside the field |
| `Vcnl3040.SettersCommute` | oled-software/vcnl3040.py:159-293 | the setters of two fields that share no bit commute on the register file |
| `Vcnl3040.StoreKeepsOther` | oled-software/vcnl3040.py:159-293 | writing one field leaves the value of every field apart from it unchanged |
| `Vcnl3040.SetFieldsKeep` | oled-software/vcnl3040.py:159-293 | a series of writes keeps the value of every field it does not touch |
| `Vcnl3040.SetFieldsReadBack` | oled-software/vcnl3040.py:159-293 | after a series of writes to pairwise disjoint fields, every field reads back as the code written to it |
| `Vcnl3040.LedCurrentCode` | oled-software/vcnl3040.py:159-174 | exactly 50, 75, 120, 140, 160 and 180 mA are accepted, each with a code that fits the LED current field |
| `Vcnl3040.LedCurrentRoundTrip` | oled-software/vcnl3040.py:22-28 | the encoding and the code table agree both ways, and no accepted current produces the 200 mA code |
| `Vcnl3040.DutyCode` | oled-software/vcnl3040.py:182-193 | exactly duty ratios 40, 80, 160 and 320 are accepted, each with a fitting code |
| `Vcnl3040.DutyRoundTrip` | oled-software/vcnl3040.py:33-36 | a code encodes a ratio exactly when it decodes to that ratio |
| `Vcnl3040.IntegrationTimeCode` | oled-software/vcnl3040.py:201-220 | exactly 1, 1.5, 2, 2.5, 3, 3.5, 4 and 8 T are accepted, each with a fitting code |
| `Vcnl3040.IntegrationTimeRoundTrip` | oled-software/vcnl3040.py:41-48 | a code encodes an integration time exactly when it decodes to it |
| `Vcnl3040.ResolutionCode` | oled-software/vcnl3040.py:228-235 | exactly 12 and 16 bits are accepted, each with a fitting code |
| `Vcnl3040.ResolutionRoundTrip` | oled-software/vcnl3040.py:228-235 | a code encodes a resolution exactly when it decodes to it |
| `Vcnl3040.InterruptCode` | oled-software/vcnl3040.py:243-254 | exactly the four mode names are accepted, each with a fitting code |
| `Vcnl3040.InterruptRoundTrip` | oled-software/vcnl3040.py:68-71 | a code encodes a mode name exactly when it decodes to it |
| `Vcnl3040.PersistenceCode` | oled-software/vcnl3040.py:276-287 | exactly persistences 1 to 4 are accepted, each with a fitting code |
| `Vcnl3040.PersistenceRoundTrip` | oled-software/vcnl3040.py:60-63 | a code encodes a persistence exactly when it decodes to it |
| `Vcnl3040.Encoded` | oled-software/vcnl3040.py:159-180 | a rejected argument raises `ValueError` with the setter's message before any bus access, leaving the device as it was; an accepted one writes its code into the field and nothing else |
| `Vcnl3040.SetLedCurrent` | oled-software/vcnl3040.py:159-180 | an unaccepted current raises with its message and changes nothing; an accepted one writes its code into bits 8-10 of CONFIG3 only |
| `Vcnl3040.SetDutyCycle` | oled-software/vcnl3040.py:182-199 | an unaccepted ratio raises and changes nothing; an accepted one writes bits 6-7 of CONFIG1 only |
| `Vcnl3040.SetIntegrationTime` | oled-software/vcnl3040.py:201-226 | an unaccepted time raises and changes nothing; an accepted one writes bits 1-3 of CONFIG1 only |
| `Vcnl3040.SetResolution` | oled-software/vcnl3040.py:228-241 | an unaccepted resolution raises and changes nothing; an accepted one writes bit 11 of CONFIG1 only |
| `Vcnl3040.SetInterruptMode` | oled-software/vcnl3040.py:243-260 | an unaccepted mode raises and changes nothing; an accepted one writes bits 8-9 of CONFIG1 only |
| `Vcnl3040.SetPersistence` | oled-software/vcnl3040.py:276-293 | an unaccepted persistence raises and changes nothing; an accepted one writes bits 4-5 of CONFIG1 only |
| `Vcnl3040.LedCurrentReadBack` | oled-software/vcnl3040.py:159-180 | whatever current the setter accepts reads back from the register as that current |
| `Vcnl3040.DutyReadBack` | oled-software/vcnl3040.py:182-199 | whatever ratio the setter accepts reads back as that ratio |
| `Vcnl3040.IntegrationTimeReadBack` | oled-software/vcnl3040.py:201-226 | whatever integration time the setter accepts reads back as that time |
| `Vcnl3040.ResolutionReadBack` | oled-software/vcnl3040.py:228-241 | whatever resolution the setter accepts reads back as that resolution |
| `Vcnl3040.InterruptReadBack` | oled-software/vcnl3040.py:243-260 | whatever mode the setter accepts reads back as that mode name |
| `Vcnl3040.PersistenceReadBack` | oled-software/vcnl3040.py:276-293 | whatever persistence the setter accepts reads back as that persistence |
| `Vcnl3040.Start` | oled-software/vcnl3040.py:110-115 | `start` clears bit 0 of CONFIG1 and keeps every other bit of every register |
| `Vcnl3040.Stop` | oled-software/vcnl3040.py:117-122 | `stop` sets bit 0 of CONFIG1 and keeps every other bit of every register |
| `Vcnl3040.EnableInterruptProximityMode` | oled-software/vcnl3040.py:262-267 | bit 14 of CONFIG3 is set and every other bit is kept |
| `Vcnl3040.EnableInterruptNormalMode` | oled-software/vcnl3040.py:269-274 | bit 14 of CONFIG3 is cleared and every other bit is kept |
| `Vcnl3040.SetForcedMode` | oled-software/vcnl3040.py:142-149 | bit 3 of CONFIG3 follows the flag, the driver remembers it, and every other bit is kept |
| `Vcnl3040.SetSunlightCancellation` | oled-software/vcnl3040.py:151-156 | bit 0 of CONFIG3 follows the flag and every other bit is kept |
| `Vcnl3040.GetData` | oled-software/vcnl3040.py:133-140 | the reading is the output register; in forced mode bit 2 of CONFIG3 is set first (read, write, then read of the output); otherwise the only effect is one read |
| `Vcnl3040.IsConnected` | oled-software/vcnl3040.py:107-108 | the sensor is connected exactly when the device-ID register holds 0x186; one read is the only effect |
| `Vcnl3040.GetInterruptFlag` | oled-software/vcnl3040.py:129-131 | the flag is the high byte of the INT_FLAG register; one read is the only effect |
| `Vcnl3040.SetLowThreshold` | oled-software/vcnl3040.py:295-296 | the low threshold register takes the value with one write and no read; nothing else changes |
| `Vcnl3040.SetHighThreshold` | oled-software/vcnl3040.py:298-299 | the high threshold register takes the value with one write and no read; nothing else changes |
| `ProximitySensor.Configure` | oled-software/proximity_sensor.py:19-29 | the configuration sequence never raises, leaves the driver out of forced mode and writes only CONFIG1 and CONFIG3 |
| `ProximitySensor.ConfigureSucceeds` | oled-software/proximity_sensor.py:19-29 | every setter of the sequence accepts its argument, so the sequence is exactly its field writes |
| `ProximitySensor.ConfigureRegisters` | oled-software/proximity_sensor.py:19-29 | the sequence rewrites CONFIG1 and CONFIG3 field by field, in source order |
| `ProximitySensor.Config1Settings` | oled-software/proximity_sensor.py:20-29 | CONFIG1 ends with duty 1, integration time 7, resolution 1, interrupt mode 3, persistence 3 and the shutdown bit clear; bits 10 and 12-15 are as before |
| `ProximitySensor.Config3Settings` | oled-software/proximity_sensor.py:19-25 | CONFIG3 ends with LED current 5, forced mode off and proximity interrupt mode on; every other bit is as before |
| `ProximitySensor.Init` | oled-software/proximity_sensor.py:10-32 | a new sensor has no handlers and nothing near |
| `ProximitySensor.InitSettings` | oled-software/proximity_sensor.py:19-32 | after construction every field holds the code of its constructor argument, and the sensor runs in auto mode with the proximity interrupt mode on |
| `ProximitySensor.InitRegisters` | oled-software/proximity_sensor.py:19-31 | the calibration during construction leaves both configuration registers as the sequence wrote them |
| `ProximitySensor.CodeValues` | oled-software/proximity_sensor.py:19-28 | the constructor's arguments encode to codes 5, 1, 7, 1, 3 and 3 |
| `ProximitySensor.InitThresholds` | oled-software/proximity_sensor.py:31-38 | after construction the thresholds are the reading and the reading plus 4 |
| `ProximitySensor.InitUntouched` | oled-software/proximity_sensor.py:10-32 | construction leaves the cancellation, output, interrupt-flag and ID registers as they were |
| `ProximitySensor.Calibrate` | oled-software/proximity_sensor.py:34-41 | the low threshold is the given one, or the current reading when none is given; the high threshold is the low one plus delta; only CONFIG3 (for a forced trigger) and the two thresholds change |
| `ProximitySensor.SetThresholds` | oled-software/proximity_sensor.py:37-38 | the low threshold is written first, then the high one, and nothing else changes |
| `ProximitySensor.CalibrateKeepsConfig` | oled-software/proximity_sensor.py:34-41 | calibration touches CONFIG3 only to trigger a forced-mode reading |
| `ProximitySensor.CalibrateFromReading` | oled-software/proximity_sensor.py:34-41 | out of forced mode, calibrating without a threshold leaves the same registers as calibrating with the current reading |
| `ProximitySensor.HighThresholdWraps` | oled-software/proximity_sensor.py:38 | a reading of 0xFFFE with the default delta puts the high threshold at 2, below the low one |
| `ProximitySensor.RegisterCallback` | oled-software/proximity_sensor.py:44-47 | registering makes the action call the handler with both argument parts, and changes no other action and nothing else, for actions other than "execute", "evaluate" and "register" (see "## Left out") |
| `ProximitySensor.EvaluateCallback` | oled-software/proximity_sensor.py:57-73 | the event is "closing" exactly when something is near and "away" otherwise; a call is made exactly when a handler is registered for the event |
| `ProximitySensor.Callback` | oled-software/proximity_sensor.py:49-55 | an interrupt takes one reading, decides nearness from it, keeps the handlers and dispatches the resulting event |
| `ProximitySensor.RegisteredCallGetsBoth` | oled-software/proximity_sensor.py:44-73 | a handler registered for the event that fires is called with both its positional and its keyword arguments |
| `ProximitySensor.EventFollowsReading` | oled-software/proximity_sensor.py:49-53 | a reading of 3 or more fires "closing" and one below 3 fires "away" |

## Left out

- GPIO setup, edge detection and the module-level singletons (`buttons`, `proximity_sensor`) are not modelled. They are hardware wiring, so the model takes the pin level and the edge as parameters.
- Threads and `threading.Timer` are not modelled as concurrency. Each launch is the synchronous state change it makes, and each timer is a pending deadline. Interleavings between the effect threads and the main thread are not modelled.
- Wall-clock time, `time.time()` and `time.sleep()` are not modelled. Time is a `now` parameter in whole milliseconds, and the sleeps between fade steps are not modelled.
- Durations are whole milliseconds, not Python floats. Sub-millisecond press durations are not modelled.
- `LEDs.gamma_correct`, `LEDs.show` and the NeoPixel writes are not modelled. They act only on the hardware pixels; the model keeps the logical buffer `current_colors`.
- `LEDs.loop_bounce`, `LEDs.heartbeat` and `LEDs.loop_heartbeat` are left out as loops. Each is an unbounded loop on its own thread, driven by the clock. One bounce tick (`Leds.BounceTick`) and the strip after any number of ticks (`Leds.Ticks`, with `Leds.BounceIsTriangle`) are modelled; the delay between ticks and the loop's exit are not. The heartbeat's fades are `fade_to` calls, which are modelled.
- The wall-clock synchronisation of the heartbeat (`effect_sync_method == "time"`) is left out because it needs the clock. Only the recording of the sync settings (`Leds.SyncEffectOn`) is modelled.
- The I2C transport (`write16`, `readU16`, the Adafruit library) is not modelled. The chip is a file of 16-bit registers, and the chip's measurement is whatever the output register holds.
- `VCNL3040.sleep` is not modelled. It calls `write` with one argument, so it can only raise `TypeError`.
- The debug `print` in `set_sunlight_cancellation` is not modelled, because it has no effect on state.
- `VCNL3040.__init__`'s choice of I2C bus is not modelled. `Vcnl3040.Open` takes the register contents instead.
- `screen.py`, `main.py` and `statistics.py` are not part of this model. They are the display, the wiring of handlers, and the statistics sampling.
- `Callbacks.RegisterIsolated`: holds for the model's separate table only. The source stores a registration as the attributes `<action>_callback`, `<action>_args` and `<action>_kwargs` on the object itself. So on a button or on the sensor, the actions "execute", "evaluate" and "register" overwrite the object's own `execute_callback`, `evaluate_callback` and `register_callback` methods. Later dispatch, evaluation or registration then calls the handler instead. That shadowing is not modelled. The handlers wired up in this program use gesture and event names only.
- `Callbacks.Register`: changes no other action in the model; the source's shadowing of its own methods by the actions "execute", "evaluate" and "register" is not modelled, as for `Callbacks.RegisterIsolated`.
- `ProximitySensor.RegisterCallback`: the same; registering "execute" on the sensor would make every later event call the handler with the event name, and this is not modelled.
- `Buttons.Register` and `Buttons.RegisteredHandlerRuns`: the same for a button reached through the group; group actions all start with `multiple` and never collide with a method name.
- Handlers are named, not run. A dispatch is the call it would make. What a handler does, and any exception it raises, are outside the core.
- `ProximitySensor.Calibrate`: the thresholds and the delta are 16-bit words, and the sum wraps modulo 2^16. This assumes that `write16` keeps the low 16 bits of its value. A Python int threshold outside 0..0xFFFF, and what the I2C library does with it, are not modelled.
- `Vcnl3040.SetLowThreshold`: takes a 16-bit word, so a Python int outside 0..0xFFFF is not modelled. The reason is the same as for `ProximitySensor.Calibrate`.
- `Vcnl3040.SetHighThreshold`: takes a 16-bit word, so a Python int outside 0..0xFFFF is not modelled. The reason is the same as for `ProximitySensor.Calibrate`.
- `Leds.Backlight`: states the fade's result only for a valid strip, and where each channel ends only for an in-range buffer. In the source the fade runs on its own thread, so its exception would never reach the caller. The model then keeps the paused buffer.
- `Leds.FillFade`: states where each channel ends only for an in-range buffer. A channel outside 0..255 is clamped at the first step, so its end need not lie between its old value and the colour's.
- `Leds.ResumeNow`: states the faded buffer only for a valid strip, and where each channel ends only for an in-range buffer, for the reason given for `Leds.FillFade`.
- `Fade.FadeTo`: reads `effect_running` once, as a parameter. The real loop can see the flag change between rounds; a change on another thread is not modelled.
- `Fade.FadeTo`: takes no `fade_time`. A negative `fade_time` makes `time.sleep(fade_time/fade_steps)` raise `ValueError` after the first round that is not broken off, with that round already written; the model returns the whole fade instead. `fill_fade`, `resume` and `bounce` fade with the default 0.5 s or the fixed 0.01 s; only a negative time given to `fade_to` or `start_heartbeat` is affected.
- `Leds.FadeTo`: takes no `fade_time`, so the `ValueError` that a negative `fade_time` raises from `time.sleep` after the first round is not modelled, for the reason given for `Fade.FadeTo`.
- Colour channels are integers. A colour passed with float channels, which `fill` would store as given, is not modelled.

=== FILE: buttons.dfy ===
/** The gesture engine of oled-software/buttons.py: one `Button` per input pin
    tracking press/release and a repeat count, and the group (`Buttons`) that
    re-arms one shared debounce timer on every release and, when it fires,
    classifies what was pressed and dispatches gesture actions.

    Time is an integer number of milliseconds passed in as `now`; the pin
    level is passed in as `high` (the input reads high when the button is
    not pushed). */
module Buttons {
  import opened Wrappers
  import Callbacks

  /** `Timer(0.25, ...)`: the quiet window after the last release. */
  const DebounceMs := 250
  /** `press_duration < 0.5`: a release faster than this adds to the repeat count. */
  const RepeatLimitMs := 500
  /** Upper ends of the `short`, `medium` and `long` buckets (`<= 0.5`, `<= 1`, `<= 2` seconds). */
  const ShortLimitMs := 500
  const MediumLimitMs := 1000
  const LongLimitMs := 2000
  /** `press_time = -1.0`: no press in progress. */
  const NoPressTime := -1000

  datatype Button = Button(
    name: string,
    gpio: int,
    pressed: bool,
    released: bool,
    pressTime: int,
    pressDuration: int,
    presses: nat,
    callbacks: Callbacks.Table)

  /** Exactly one of `pressed` and `released` holds. */
  predicate Complementary(b: Button) {
    b.pressed != b.released
  }

  /** Two buttons agree on everything but the press bookkeeping. */
  predicate SameIdentity(b: Button, b': Button) {
    b'.name == b.name && b'.gpio == b.gpio && b'.callbacks == b.callbacks
  }

  function NewButton(name: string, gpio: int): (b: Button)
    ensures b.name == name && b.gpio == gpio
    ensures Complementary(b) && b.released
    ensures b.pressTime == NoPressTime && b.pressDuration == 0 && b.presses == 0
    ensures b.callbacks == Callbacks.Empty
  {
    Button(name, gpio, false, true, NoPressTime, 0, 0, Callbacks.Empty)
  }

  /** The button goes down at `now`. */
  function Press(b: Button, now: int): (b': Button)
    ensures Complementary(b') && b'.pressed
    ensures b'.pressTime == now && b'.pressDuration == 0
    ensures b'.presses == b.presses && SameIdentity(b, b')
  {
    b.(pressed := true, released := false, pressTime := now, pressDuration := 0)
  }

  /** The button comes up at `now`: the press lasted since `pressTime`; a
      fast release extends the repeat sequence, a slow one restarts it at 1. */
  function Release(b: Button, now: int): (b': Button)
    ensures Complementary(b') && b'.released
    ensures b'.pressTime == NoPressTime
    ensures b'.pressDuration == now - b.pressTime
    ensures b'.pressDuration < RepeatLimitMs ==> b'.presses == b.presses + 1
    ensures b'.pressDuration >= RepeatLimitMs ==> b'.presses == 1
    ensures SameIdentity(b, b')
  {
    var duration := now - b.pressTime;
    b.(pressed := false, released := true, pressDuration := duration, pressTime := NoPressTime,
       presses := if duration < RepeatLimitMs then b.presses + 1 else 1)
  }

  /** `Button.callback` reading level `high` at `now`. The second component
      says whether a release happened (which is what re-arms the timer).
      The state toggles exactly when the level disagrees with it; every
      other level change leaves the button as it was. */
  function LevelChange(b: Button, high: bool, now: int): (r: (Button, bool))
    ensures r.1 <==> b.pressed && high
    ensures r.1 ==> r.0 == Release(b, now)
    ensures b.released && !high && !b.pressed ==> r.0 == Press(b, now)
    ensures Complementary(b) ==> Complementary(r.0)
    ensures Complementary(b) ==> (r.0.pressed != b.pressed <==> b.pressed == high)
    ensures Complementary(b) && b.pressed != high ==> r.0 == b
  {
    if b.pressed && high then (Release(b, now), true)
    else if b.released && !high then (Press(b, now), false)
    else (b, false)
  }

  /** `reset`: forget the gesture, keep the press/release state. */
  function Reset(b: Button): (b': Button)
    ensures b'.presses == 0 && b'.pressDuration == 0
    ensures b'.pressed == b.pressed && b'.released == b.released && b'.pressTime == b.pressTime
    ensures SameIdentity(b, b')
  {
    b.(presses := 0, pressDuration := 0)
  }

  // ---------------------------------------------------------------------
  // Classification
  // ---------------------------------------------------------------------

  datatype Duration = Short | Medium | Long | ExtraLong

  /** The threshold ladder of `short`/`medium`/`long`/`extra_long`: the
      first matching threshold wins, so exactly one bucket applies. */
  function Classify(ms: int): (d: Duration)
    ensures d == Short <==> ms <= ShortLimitMs
    ensures d == Medium <==> ShortLimitMs < ms <= MediumLimitMs
    ensures d == Long <==> MediumLimitMs < ms <= LongLimitMs
    ensures d == ExtraLong <==> LongLimitMs < ms
  {
    if ms <= ShortLimitMs then Short
    else if ms <= MediumLimitMs then Medium
    else if ms <= LongLimitMs then Long
    else ExtraLong
  }

  function Label(d: Duration): string {
    match d
    case Short => "short"
    case Medium => "medium"
    case Long => "long"
    case ExtraLong => "extra_long"
  }

  function MultipleLabel(d: Duration): string {
    match d
    case Short => "multiple_short"
    case Medium => "multiple_medium"
    case Long => "multiple_long"
    case ExtraLong => "multiple_extra_long"
  }

  /** The repeat action for a count (`twice`, `trice`), if there is one. */
  function RepeatLabel(count: int): seq<string> {
    if count == 2 then ["twice"] else if count == 3 then ["trice"] else []
  }

  /** The group's repeat dispatch for the highest count, if there is one. */
  function GroupRepeat(count: int): (ds: seq<Dispatch>)
    ensures |ds| <= 1
  {
    if count == 2 then [OnGroup("multiple_twice")]
    else if count == 3 then [OnGroup("multiple_trice")]
    else []
  }

  /** `Button.evaluate_callback`: the actions one button dispatches, and the
      button after its reset. A single press yields exactly one duration
      action, a count of 2 or 3 yields `twice`/`trice`, anything else
      yields nothing. */
  function Evaluate(b: Button): (r: (Button, seq<string>))
    ensures r.0 == Reset(b)
    ensures |r.1| <= 1
    ensures |r.1| == 1 <==> 1 <= b.presses <= 3
    ensures "short" in r.1 <==> b.presses == 1 && b.pressDuration <= ShortLimitMs
    ensures "medium" in r.1 <==> b.presses == 1 && ShortLimitMs < b.pressDuration <= MediumLimitMs
    ensures "long" in r.1 <==> b.presses == 1 && MediumLimitMs < b.pressDuration <= LongLimitMs
    ensures "extra_long" in r.1 <==> b.presses == 1 && LongLimitMs < b.pressDuration
    ensures "twice" in r.1 <==> b.presses == 2
    ensures "trice" in r.1 <==> b.presses == 3
  {
    var single := if b.presses == 1 then [Label(Classify(b.pressDuration))] else [];
    (Reset(b), single + RepeatLabel(b.presses))
  }

  // ---------------------------------------------------------------------
  // The group
  // ---------------------------------------------------------------------

  /** `Buttons`: the buttons in registration order, the one pending
      evaluation (its deadline, if armed) and the group's own registry for
      the `multiple_*` actions. */
  datatype Group = Group(buttons: seq<Button>, timer: Option<int>, callbacks: Callbacks.Table)

  /** One `execute_callback` call made during evaluation: on a button's
      registry or on the group's. */
  datatype Dispatch = OnButton(button: string, action: string) | OnGroup(action: string)

  /** Raised by the group: `get` found no button on that pin, or
      `getattr(self, btn)` found no button of that name. */
  datatype Error = NoSuchPin(gpio: int) | NoSuchButton(name: string)

  predicate DistinctNames(bs: seq<Button>) {
    forall i, j :: 0 <= i < j < |bs| ==> bs[i].name != bs[j].name
  }

  /** `Buttons(btns)`: one fresh button per (name, pin) entry of the dict. */
  function NewGroup(pins: seq<(string, int)>): (g: Group)
    requires forall i, j :: 0 <= i < j < |pins| ==> pins[i].0 != pins[j].0
    ensures |g.buttons| == |pins| && DistinctNames(g.buttons)
    ensures forall i :: 0 <= i < |pins| ==> g.buttons[i] == NewButton(pins[i].0, pins[i].1)
    ensures g.timer == None && g.callbacks == Callbacks.Empty
  {
    Group(seq(|pins|, i requires 0 <= i < |pins| => NewButton(pins[i].0, pins[i].1)), None, Callbacks.Empty)
  }

  /** The first position of `x` in `xs`, if it occurs: the search of
      `next(... for btn in self.list if ...)`. */
  function FirstIndex<T(==)>(xs: seq<T>, x: T): (r: Option<nat>)
    ensures r.None? <==> x !in xs
    ensures r.Some? ==> r.value < |xs| && xs[r.value] == x
    ensures r.Some? ==> forall j :: 0 <= j < r.value ==> xs[j] != x
  {
    if |xs| == 0 then None
    else if xs[0] == x then Some(0)
    else match FirstIndex(xs[1..], x)
      case None => None
      case Some(k) => Some(k + 1)
  }

  /** The pins of the buttons, in order. */
  function Pins(bs: seq<Button>): (ps: seq<int>)
    ensures |ps| == |bs| && forall i :: 0 <= i < |bs| ==> ps[i] == bs[i].gpio
  {
    seq(|bs|, i requires 0 <= i < |bs| => bs[i].gpio)
  }

  /** The names of the buttons, in order. */
  function Names(bs: seq<Button>): (ns: seq<string>)
    ensures |ns| == |bs| && forall i :: 0 <= i < |bs| ==> ns[i] == bs[i].name
  {
    seq(|bs|, i requires 0 <= i < |bs| => bs[i].name)
  }

  /** `get(gpio)`: the first button on that pin. */
  function Find(bs: seq<Button>, gpio: int): (r: Option<nat>)
    ensures r.None? <==> forall j :: 0 <= j < |bs| ==> bs[j].gpio != gpio
    ensures r.Some? ==> r.value < |bs| && bs[r.value].gpio == gpio
    ensures r.Some? ==> forall j :: 0 <= j < r.value ==> bs[j].gpio != gpio
  {
    assert gpio in Pins(bs) <==> exists j :: 0 <= j < |bs| && Pins(bs)[j] == gpio;
    FirstIndex(Pins(bs), gpio)
  }

  /** `getattr(self, btn)`: the button registered under that name (the
      first, should two share it). */
  function FindByName(bs: seq<Button>, name: string): (r: Option<nat>)
    ensures r.None? <==> forall j :: 0 <= j < |bs| ==> bs[j].name != name
    ensures r.Some? ==> r.value < |bs| && bs[r.value].name == name
    ensures r.Some? ==> forall j :: 0 <= j < r.value ==> bs[j].name != name
  {
    assert name in Names(bs) <==> exists j :: 0 <= j < |bs| && Names(bs)[j] == name;
    FirstIndex(Names(bs), name)
  }

  /** `start_timer_evaluate_callback`: cancel whatever was pending and arm
      one evaluation `DebounceMs` from now. */
  function Arm(g: Group, now: int): (g': Group)
    ensures g'.timer == Some(now + DebounceMs)
    ensures g'.buttons == g.buttons && g'.callbacks == g.callbacks
  {
    g.(timer := Some(now + DebounceMs))
  }

  /** `Buttons.callback(gpio)` with the pin reading `high` at `now`: the
      button on that pin sees the level change, and a release re-arms the
      timer. An unknown pin raises, as `None.callback()` does. */
  function Callback(g: Group, gpio: int, high: bool, now: int): (r: Result<Group, Error>)
    ensures r.Failure? <==> gpio !in Pins(g.buttons)
    ensures r.Success? ==> |r.value.buttons| == |g.buttons| && r.value.callbacks == g.callbacks
    ensures r.Success? ==> exists i :: (0 <= i < |g.buttons| && g.buttons[i].gpio == gpio
      && (forall j :: 0 <= j < i ==> g.buttons[j].gpio != gpio)
      && r.value.buttons == g.buttons[i := LevelChange(g.buttons[i], high, now).0]
      && r.value.timer == if LevelChange(g.buttons[i], high, now).1 then Some(now + DebounceMs) else g.timer)
  {
    match Find(g.buttons, gpio)
    case None => Failure(NoSuchPin(gpio))
    case Some(i) =>
      var (b', releasedNow) := LevelChange(g.buttons[i], high, now);
      var g' := g.(buttons := g.buttons[i := b']);
      Success(if releasedNow then Arm(g', now) else g')
  }

  /** Indices, in order, of the buttons with at least one press. */
  function Qualifying(bs: seq<Button>): (q: seq<nat>)
    ensures forall k :: 0 <= k < |q| ==> q[k] < |bs| && bs[q[k]].presses >= 1
    ensures forall i :: 0 <= i < |bs| && bs[i].presses >= 1 ==> i in q
    ensures forall k, l :: 0 <= k < l < |q| ==> q[k] < q[l]
  {
    if |bs| == 0 then []
    else
      var q := Qualifying(bs[..|bs| - 1]);
      if bs[|bs| - 1].presses >= 1 then q + [|bs| - 1] else q
  }

  function MaxOf(xs: seq<int>): (m: int)
    requires |xs| > 0
    ensures m in xs
    ensures forall k :: 0 <= k < |xs| ==> xs[k] <= m
  {
    if |xs| == 1 then xs[0]
    else
      var rest := MaxOf(xs[1..]);
      if xs[0] >= rest then xs[0] else rest
  }

  function Durations(bs: seq<Button>, q: seq<nat>): (ds: seq<int>)
    requires forall k :: 0 <= k < |q| ==> q[k] < |bs|
    ensures |ds| == |q| && forall k :: 0 <= k < |q| ==> ds[k] == bs[q[k]].pressDuration
  {
    seq(|q|, k requires 0 <= k < |q| => bs[q[k]].pressDuration)
  }

  function Counts(bs: seq<Button>, q: seq<nat>): (cs: seq<int>)
    requires forall k :: 0 <= k < |q| ==> q[k] < |bs|
    ensures |cs| == |q| && forall k :: 0 <= k < |q| ==> cs[k] == bs[q[k]].presses
  {
    seq(|q|, k requires 0 <= k < |q| => bs[q[k]].presses)
  }

  /** Reset every button with at least one press; leave the others. */
  function ResetPressed(bs: seq<Button>): (bs': seq<Button>)
    ensures |bs'| == |bs|
    ensures forall i :: 0 <= i < |bs| ==> bs'[i] == if bs[i].presses >= 1 then Reset(bs[i]) else bs[i]
  {
    seq(|bs|, i requires 0 <= i < |bs| => if bs[i].presses >= 1 then Reset(bs[i]) else bs[i])
  }

  function OnButtonAll(name: string, actions: seq<string>): (ds: seq<Dispatch>)
    ensures |ds| == |actions| && forall k :: 0 <= k < |ds| ==> ds[k] == OnButton(name, actions[k])
  {
    seq(|actions|, k requires 0 <= k < |actions| => OnButton(name, actions[k]))
  }

  /** `Buttons.evaluate_callback`. More than one button pressed: one
      `multiple_*` duration action from the longest press, then at most one
      repeat action from the highest count. Exactly one: that button
      evaluates itself. None: nothing. In every case exactly the pressed
      buttons are reset and the timer slot is emptied. */
  function EvaluateGroup(g: Group): (r: (Group, seq<Dispatch>))
    ensures r.0.timer == None && r.0.callbacks == g.callbacks
    ensures r.0.buttons == ResetPressed(g.buttons)
    ensures |Qualifying(g.buttons)| == 0 ==> r.1 == []
    ensures |Qualifying(g.buttons)| == 1 ==>
      var b := g.buttons[Qualifying(g.buttons)[0]];
      r.1 == OnButtonAll(b.name, Evaluate(b).1)
    ensures |Qualifying(g.buttons)| > 1 ==>
      var q := Qualifying(g.buttons);
      r.1 == [OnGroup(MultipleLabel(Classify(MaxOf(Durations(g.buttons, q)))))]
        + GroupRepeat(MaxOf(Counts(g.buttons, q)))
  {
    var q := Qualifying(g.buttons);
    if |q| > 1 then
      EvaluateMany(g, q)
    else if |q| == 1 then
      OnlyQualifier(g.buttons);
      EvaluateSingle(g, q[0])
    else
      NonePressed(g.buttons);
      assert g.buttons == ResetPressed(g.buttons);
      (g.(timer := None), [])
  }

  /** Several pressed buttons: the group's duration action from the
      longest press, its repeat action from the highest count, and every
      pressed button reset. */
  function EvaluateMany(g: Group, q: seq<nat>): (r: (Group, seq<Dispatch>))
    requires |q| > 0 && forall k :: 0 <= k < |q| ==> q[k] < |g.buttons|
    ensures r.0.timer == None && r.0.callbacks == g.callbacks
    ensures r.0.buttons == ResetPressed(g.buttons)
    ensures r.1 == [OnGroup(MultipleLabel(Classify(MaxOf(Durations(g.buttons, q)))))]
      + GroupRepeat(MaxOf(Counts(g.buttons, q)))
  {
    var longest := MaxOf(Durations(g.buttons, q));
    var most := MaxOf(Counts(g.buttons, q));
    var ds := [OnGroup(MultipleLabel(Classify(longest)))] + GroupRepeat(most);
    (Group(ResetPressed(g.buttons), None, g.callbacks), ds)
  }

  /** The one pressed button evaluates itself and is the only one reset. */
  function EvaluateSingle(g: Group, i: nat): (r: (Group, seq<Dispatch>))
    requires i < |g.buttons| && g.buttons[i].presses >= 1
    requires forall j :: 0 <= j < |g.buttons| && j != i ==> g.buttons[j].presses < 1
    ensures r.0.timer == None && r.0.callbacks == g.callbacks
    ensures r.0.buttons == ResetPressed(g.buttons)
    ensures r.1 == OnButtonAll(g.buttons[i].name, Evaluate(g.buttons[i]).1)
  {
    var (b', actions) := Evaluate(g.buttons[i]);
    assert g.buttons[i := b'] == ResetPressed(g.buttons);
    (Group(g.buttons[i := b'], None, g.callbacks), OnButtonAll(g.buttons[i].name, actions))
  }

  /** Without a press no button qualifies. */
  lemma NoPressNoQualifier(bs: seq<Button>)
    requires forall i :: 0 <= i < |bs| ==> bs[i].presses == 0
    ensures Qualifying(bs) == []
  {
  }

  /** With no button pressed, no button has a press. */
  lemma NonePressed(bs: seq<Button>)
    requires |Qualifying(bs)| == 0
    ensures forall i :: 0 <= i < |bs| ==> bs[i].presses < 1
  {
  }

  /** With one button pressed, every other button has no press. */
  lemma OnlyQualifier(bs: seq<Button>)
    requires |Qualifying(bs)| == 1
    ensures forall i :: 0 <= i < |bs| && i != Qualifying(bs)[0] ==> bs[i].presses < 1
  {
  }

  /** The debounce timer firing at `now`: a pending evaluation whose
      deadline has passed runs; a superseded or absent one does nothing. */
  function Fire(g: Group, now: int): (r: (Group, seq<Dispatch>))
    ensures g.timer.Some? && g.timer.value <= now ==> r == EvaluateGroup(g)
    ensures g.timer.None? || now < g.timer.value ==> r == (g, [])
    ensures r.0.timer == None || r.0 == g
  {
    if g.timer.Some? && g.timer.value <= now then EvaluateGroup(g) else (g, [])
  }

  predicate StartsWith(s: string, prefix: string) {
    |prefix| <= |s| && s[..|prefix|] == prefix
  }

  /** `Buttons.register_callback(btn, action, function, *args, **kwargs)`:
      `multiple*` actions go to the group whatever `btn` says; every other
      action goes to the named button, which must exist. */
  function Register(g: Group, button: string, action: string, handler: string,
                    args: seq<Callbacks.Value>, kwargs: map<string, Callbacks.Value>): (r: Result<Group, Error>)
    ensures StartsWith(action, "multiple") ==>
      r == Success(g.(callbacks := Callbacks.Register(g.callbacks, action, handler, args, kwargs)))
    ensures !StartsWith(action, "multiple") ==>
      (r.Failure? <==> button !in Names(g.buttons))
    ensures !StartsWith(action, "multiple") && r.Success? ==>
      r.value.callbacks == g.callbacks && r.value.timer == g.timer && |r.value.buttons| == |g.buttons|
      && exists i :: (0 <= i < |g.buttons| && g.buttons[i].name == button
        && r.value.buttons == g.buttons[i := g.buttons[i].(callbacks :=
             Callbacks.Register(g.buttons[i].callbacks, action, handler, args, kwargs))])
  {
    if !StartsWith(action, "multiple") then
      match FindByName(g.buttons, button)
      case None => Failure(NoSuchButton(button))
      case Some(i) =>
        var b := g.buttons[i];
        Success(g.(buttons := g.buttons[i := b.(callbacks := Callbacks.Register(b.callbacks, action, handler, args, kwargs))]))
    else
      Success(g.(callbacks := Callbacks.Register(g.callbacks, action, handler, args, kwargs)))
  }

  /** The call one dispatch makes: through the group's registry or through
      the named button's; an unregistered action makes none. */
  function Invoke(g: Group, d: Dispatch): (c: Option<Callbacks.Call>)
    ensures d.OnGroup? ==> c == Callbacks.Execute(g.callbacks, d.action)
    ensures d.OnButton? && d.button !in Names(g.buttons) ==> c == None
    ensures d.OnButton? && d.button in Names(g.buttons) ==>
      exists i :: (0 <= i < |g.buttons| && g.buttons[i].name == d.button
        && (forall j :: 0 <= j < i ==> g.buttons[j].name != d.button)
        && c == Callbacks.Execute(g.buttons[i].callbacks, d.action))
  {
    match d
    case OnGroup(action) => Callbacks.Execute(g.callbacks, action)
    case OnButton(name, action) =>
      match FindByName(g.buttons, name)
      case None => None
      case Some(i) => Callbacks.Execute(g.buttons[i].callbacks, action)
  }

  // ---------------------------------------------------------------------
  // Properties
  // ---------------------------------------------------------------------

  /** Every pressed button held for at most `limit` ms. */
  predicate HeldAtMost(bs: seq<Button>, limit: int) {
    forall i :: 0 <= i < |bs| && bs[i].presses >= 1 ==> bs[i].pressDuration <= limit
  }

  /** Every pressed button has a repeat count of at most `n`. */
  predicate CountAtMost(bs: seq<Button>, n: int) {
    forall i :: 0 <= i < |bs| && bs[i].presses >= 1 ==> bs[i].presses <= n
  }

  /** The maximum the group takes over the pressed buttons is attained by
      one of them and bounds all of them. */
  lemma PressedMaxima(bs: seq<Button>)
    requires |Qualifying(bs)| > 0
    ensures forall limit :: MaxOf(Durations(bs, Qualifying(bs))) <= limit <==> HeldAtMost(bs, limit)
    ensures forall n :: MaxOf(Counts(bs, Qualifying(bs))) <= n <==> CountAtMost(bs, n)
  {
    var q := Qualifying(bs);
    var longest := MaxOf(Durations(bs, q));
    var most := MaxOf(Counts(bs, q));
    var kd :| 0 <= kd < |q| && Durations(bs, q)[kd] == longest;
    var kc :| 0 <= kc < |q| && Counts(bs, q)[kc] == most;
    forall i | 0 <= i < |bs| && bs[i].presses >= 1
      ensures bs[i].pressDuration <= longest && bs[i].presses <= most
    {
      assert i in q;
      var k :| 0 <= k < |q| && q[k] == i;
      assert Durations(bs, q)[k] == bs[i].pressDuration;
      assert Counts(bs, q)[k] == bs[i].presses;
    }
    forall limit | HeldAtMost(bs, limit) ensures longest <= limit {
      assert bs[q[kd]].presses >= 1;
    }
    forall n | CountAtMost(bs, n) ensures most <= n {
      assert bs[q[kc]].presses >= 1;
    }
  }

  /** With several buttons pressed, the group's duration action is the
      bucket of the longest press among them. */
  lemma MultiDurationBucket(g: Group)
    requires |Qualifying(g.buttons)| > 1
    ensures var ds := EvaluateGroup(g).1;
      && 1 <= |ds| <= 2
      && (ds[0] == OnGroup("multiple_short") <==> HeldAtMost(g.buttons, ShortLimitMs))
      && (ds[0] == OnGroup("multiple_medium") <==>
            HeldAtMost(g.buttons, MediumLimitMs) && !HeldAtMost(g.buttons, ShortLimitMs))
      && (ds[0] == OnGroup("multiple_long") <==>
            HeldAtMost(g.buttons, LongLimitMs) && !HeldAtMost(g.buttons, MediumLimitMs))
      && (ds[0] == OnGroup("multiple_extra_long") <==> !HeldAtMost(g.buttons, LongLimitMs))
  {
    var q := Qualifying(g.buttons);
    PressedMaxima(g.buttons);
    var longest := MaxOf(Durations(g.buttons, q));
    MultiFirst(g);
    BucketOfLongest(g.buttons, longest);
  }

  /** With several buttons pressed, the duration action comes first and at
      most the repeat action follows. */
  lemma MultiFirst(g: Group)
    requires |Qualifying(g.buttons)| > 1
    ensures var ds := EvaluateGroup(g).1;
      && 1 <= |ds| <= 2
      && ds[0] == OnGroup(MultipleLabel(Classify(MaxOf(Durations(g.buttons, Qualifying(g.buttons))))))
  {
  }

  /** The bucket of the longest press, phrased as bounds on every press. */
  lemma BucketOfLongest(bs: seq<Button>, longest: int)
    requires forall limit :: longest <= limit <==> HeldAtMost(bs, limit)
    ensures var d := OnGroup(MultipleLabel(Classify(longest)));
      && (d == OnGroup("multiple_short") <==> HeldAtMost(bs, ShortLimitMs))
      && (d == OnGroup("multiple_medium") <==> HeldAtMost(bs, MediumLimitMs) && !HeldAtMost(bs, ShortLimitMs))
      && (d == OnGroup("multiple_long") <==> HeldAtMost(bs, LongLimitMs) && !HeldAtMost(bs, MediumLimitMs))
      && (d == OnGroup("multiple_extra_long") <==> !HeldAtMost(bs, LongLimitMs))
  {
    assert HeldAtMost(bs, ShortLimitMs) <==> longest <= ShortLimitMs;
    assert HeldAtMost(bs, MediumLimitMs) <==> longest <= MediumLimitMs;
    assert HeldAtMost(bs, LongLimitMs) <==> longest <= LongLimitMs;
    MultipleLabelNames(Classify(longest));
  }

  /** Each duration has its own `multiple_*` name. */
  lemma MultipleLabelNames(d: Duration)
    ensures MultipleLabel(d) == "multiple_short" <==> d == Short
    ensures MultipleLabel(d) == "multiple_medium" <==> d == Medium
    ensures MultipleLabel(d) == "multiple_long" <==> d == Long
    ensures MultipleLabel(d) == "multiple_extra_long" <==> d == ExtraLong
  {
  }

  /** With several buttons pressed, the group's repeat action comes from
      the highest count among them: `multiple_twice` for 2, `multiple_trice`
      for 3, nothing otherwise. */
  lemma MultiRepeatBucket(g: Group)
    requires |Qualifying(g.buttons)| > 1
    ensures var ds := EvaluateGroup(g).1;
      && (ds[1..] == [OnGroup("multiple_twice")] <==> CountAtMost(g.buttons, 2) && !CountAtMost(g.buttons, 1))
      && (ds[1..] == [OnGroup("multiple_trice")] <==> CountAtMost(g.buttons, 3) && !CountAtMost(g.buttons, 2))
      && (ds[1..] == [] <==> CountAtMost(g.buttons, 1) || !CountAtMost(g.buttons, 3))
  {
    var q := Qualifying(g.buttons);
    PressedMaxima(g.buttons);
    var most := MaxOf(Counts(g.buttons, q));
    var ds := EvaluateGroup(g).1;
    var head := MultipleLabel(Classify(MaxOf(Durations(g.buttons, q))));
    assert ds == [OnGroup(head)] + GroupRepeat(most);
    assert ds[1..] == GroupRepeat(most);
    assert CountAtMost(g.buttons, 1) <==> most <= 1;
    assert CountAtMost(g.buttons, 2) <==> most <= 2;
    assert CountAtMost(g.buttons, 3) <==> most <= 3;
  }

  /** No action a single button dispatches starts with `multiple`. */
  lemma ButtonActionsNotMultiple(b: Button)
    ensures forall a :: a in Evaluate(b).1 ==> !StartsWith(a, "multiple")
  {
    if b.presses == 1 {
      var a := Label(Classify(b.pressDuration));
      assert Evaluate(b).1 == [a];
      match Classify(b.pressDuration)
      case Short => assert a[0] == 's';
      case Medium => assert a[1] == 'e';
      case Long => assert a[0] == 'l';
      case ExtraLong => assert a[0] == 'e';
    } else if b.presses == 2 {
      assert Evaluate(b).1 == ["twice"] && "twice"[0] == 't';
    } else if b.presses == 3 {
      assert Evaluate(b).1 == ["trice"] && "trice"[0] == 't';
    }
  }

  /** Every action the group dispatches starts with `multiple`. */
  lemma GroupActionsMultiple(bucket: Duration, count: int)
    ensures forall d :: d in [OnGroup(MultipleLabel(bucket))] + GroupRepeat(count) ==>
      d.OnGroup? && StartsWith(d.action, "multiple")
  {
    var head := MultipleLabel(bucket);
    assert head[..8] == "multiple";
    if count == 2 {
      assert "multiple_twice"[..8] == "multiple";
    } else if count == 3 {
      assert "multiple_trice"[..8] == "multiple";
    }
  }

  /** Every action evaluation dispatches is looked up where
      `register_callback` stores it: the group's actions are exactly those
      starting with `multiple`. */
  lemma DispatchRouting(g: Group)
    ensures forall d :: d in EvaluateGroup(g).1 ==> (d.OnGroup? <==> StartsWith(d.action, "multiple"))
  {
    var q := Qualifying(g.buttons);
    if |q| > 1 {
      GroupActionsMultiple(Classify(MaxOf(Durations(g.buttons, q))), MaxOf(Counts(g.buttons, q)));
    } else if |q| == 1 {
      var b := g.buttons[q[0]];
      ButtonActionsNotMultiple(b);
      forall d | d in EvaluateGroup(g).1
        ensures d.OnButton? && !StartsWith(d.action, "multiple")
      {
        assert d.action in Evaluate(b).1;
      }
    }
  }

  /** A handler registered for an action is what a dispatch of that action
      calls, with the registered arguments through the branch that passes
      both parts. */
  lemma RegisteredHandlerRuns(g: Group, button: string, action: string, handler: string,
                              args: seq<Callbacks.Value>, kwargs: map<string, Callbacks.Value>, d: Dispatch)
    requires DistinctNames(g.buttons)
    requires Register(g, button, action, handler, args, kwargs).Success?
    requires d.action == action
    requires d.OnGroup? <==> StartsWith(action, "multiple")
    requires d.OnButton? ==> d.button == button
    ensures Invoke(Register(g, button, action, handler, args, kwargs).value, d)
         == Some(Callbacks.Call(handler, args, kwargs, Callbacks.Both))
  {
    var g' := Register(g, button, action, handler, args, kwargs).value;
    if d.OnButton? {
      var i :| 0 <= i < |g.buttons| && g.buttons[i].name == button
        && g'.buttons == g.buttons[i := g.buttons[i].(callbacks :=
             Callbacks.Register(g.buttons[i].callbacks, action, handler, args, kwargs))];
      var found := FindByName(g'.buttons, button);
      assert g'.buttons[i].name == button;
      assert Names(g'.buttons)[i] == button;
      assert found.Some? && Names(g'.buttons)[found.value] == button;
      assert found.value == i;
      Callbacks.RegisterThenExecute(g.buttons[i].callbacks, action, handler, args, kwargs);
    } else {
      Callbacks.RegisterThenExecute(g.callbacks, action, handler, args, kwargs);
    }
  }

  /** Once the timer has fired, firing again does nothing until a release
      re-arms it: a burst is classified once. */
  lemma FiresOnce(g: Group, t1: int, t2: int)
    requires g.timer.Some? && g.timer.value <= t1
    ensures Fire(Fire(g, t1).0, t2) == (Fire(g, t1).0, [])
  {
  }

  /** Evaluation consumes every press: evaluating again dispatches nothing
      and changes nothing but the (already empty) timer slot. */
  lemma EvaluateConsumes(g: Group)
    ensures EvaluateGroup(EvaluateGroup(g).0) == (EvaluateGroup(g).0, [])
  {
    var g' := EvaluateGroup(g).0;
    assert forall i :: 0 <= i < |g'.buttons| ==> g'.buttons[i].presses == 0;
    NoPressNoQualifier(g'.buttons);
    assert g'.(timer := None) == g';
  }

  /** A hold of the button: the pin goes low at `down` and high at `up`. */
  datatype Hold = Hold(down: int, up: int)

  /** A release that ends a hold this short extends the repeat count. */
  predicate Fast(h: Hold) {
    h.up - h.down < RepeatLimitMs
  }

  /** The button after one hold, seen as two level changes. */
  function Click(b: Button, h: Hold): Button {
    LevelChange(LevelChange(b, false, h.down).0, true, h.up).0
  }

  /** The button after a series of holds. */
  function Clicks(b: Button, hs: seq<Hold>): Button
    decreases |hs|
  {
    if |hs| == 0 then b else Clicks(Click(b, hs[0]), hs[1..])
  }

  /** A released button goes down and comes up again: it ends released,
      counts the hold when it was fast and restarts at 1 when it was slow. */
  lemma ClickCounts(b: Button, h: Hold)
    requires Complementary(b) && b.released
    ensures Complementary(Click(b, h)) && Click(b, h).released
    ensures Click(b, h).presses == if Fast(h) then b.presses + 1 else 1
  {
    var down := LevelChange(b, false, h.down).0;
    assert down == Press(b, h.down);
    assert Click(b, h) == Release(down, h.up);
  }

  /** An edge on the pin of button `i`, when no earlier button shares the
      pin, reaches button `i`. */
  lemma CallbackAt(g: Group, i: nat, high: bool, now: int)
    requires i < |g.buttons| && forall j :: 0 <= j < i ==> g.buttons[j].gpio != g.buttons[i].gpio
    ensures var (b', releasedNow) := LevelChange(g.buttons[i], high, now);
      Callback(g, g.buttons[i].gpio, high, now)
        == Success(Group(g.buttons[i := b'], if releasedNow then Some(now + DebounceMs) else g.timer, g.callbacks))
  {
    assert Find(g.buttons, g.buttons[i].gpio) == Some(i);
  }

  /** A hold seen through the group: the pin's first button takes both
      edges and ends as `Click` says, and the release arms the timer 250 ms
      after it. */
  lemma CallbackHold(g: Group, i: nat, h: Hold)
    requires i < |g.buttons| && forall j :: 0 <= j < i ==> g.buttons[j].gpio != g.buttons[i].gpio
    requires Complementary(g.buttons[i]) && g.buttons[i].released
    ensures var gpio := g.buttons[i].gpio;
      && Callback(g, gpio, false, h.down).Success?
      && Callback(Callback(g, gpio, false, h.down).value, gpio, true, h.up)
         == Success(Group(g.buttons[i := Click(g.buttons[i], h)], Some(h.up + DebounceMs), g.callbacks))
  {
    var b := g.buttons[i];
    var down := Press(b, h.down);
    assert LevelChange(b, false, h.down) == (down, false);
    CallbackAt(g, i, false, h.down);
    var g1 := Group(g.buttons[i := down], g.timer, g.callbacks);
    assert g1.buttons[i].gpio == b.gpio;
    assert LevelChange(down, true, h.up) == (Release(down, h.up), true);
    CallbackAt(g1, i, true, h.up);
    assert g1.buttons[i := Release(down, h.up)] == g.buttons[i := Click(b, h)];
  }

  /** A series of holds leaves a released button released. */
  lemma {:induction false} ClicksReleased(b: Button, hs: seq<Hold>)
    requires Complementary(b) && b.released
    ensures Complementary(Clicks(b, hs)) && Clicks(b, hs).released
    decreases |hs|
  {
    if |hs| > 0 {
      ClickCounts(b, hs[0]);
      ClicksReleased(Click(b, hs[0]), hs[1..]);
    }
  }

  /** With only fast holds every hold adds to the count the button started
      with. */
  lemma {:induction false} ClicksAllFast(b: Button, hs: seq<Hold>)
    requires Complementary(b) && b.released
    requires forall k :: 0 <= k < |hs| ==> Fast(hs[k])
    ensures Clicks(b, hs).presses == b.presses + |hs|
    decreases |hs|
  {
    if |hs| > 0 {
      ClickCounts(b, hs[0]);
      assert forall k :: 0 <= k < |hs| - 1 ==> hs[1..][k] == hs[k + 1];
      ClicksAllFast(Click(b, hs[0]), hs[1..]);
    }
  }

  /** After the last slow hold, at `j`, the count is the number of holds
      since, and including, that one. */
  lemma {:induction false} ClicksSinceSlow(b: Button, hs: seq<Hold>, j: int)
    requires Complementary(b) && b.released
    requires 0 <= j < |hs| && !Fast(hs[j])
    requires forall k :: j < k < |hs| ==> Fast(hs[k])
    ensures Clicks(b, hs).presses == |hs| - j
    decreases |hs|
  {
    ClickCounts(b, hs[0]);
    var rest := hs[1..];
    if j == 0 {
      assert forall k :: 0 <= k < |rest| ==> rest[k] == hs[k + 1];
      ClicksAllFast(Click(b, hs[0]), rest);
    } else {
      assert rest[j - 1] == hs[j];
      assert forall k :: j - 1 < k < |rest| ==> rest[k] == hs[k + 1];
      ClicksSinceSlow(Click(b, hs[0]), rest, j - 1);
    }
  }
}

=== FILE: callbacks.dfy ===
/** The action -> handler registry that the buttons, the button group and the
    proximity sensor each keep (oled-software/buttons.py and
    oled-software/proximity_sensor.py store it as `<action>_callback`,
    `<action>_args` and `<action>_kwargs` attributes). The table is kept
    apart from the object's methods, so the source's shadowing of
    `execute_callback`, `evaluate_callback` and `register_callback` by the
    actions "execute", "evaluate" and "register" is not modelled. */
module Callbacks {
  import opened Wrappers

  /** An argument bound at registration time. */
  datatype Value = IntValue(i: int) | TextValue(s: string)

  /** What one registration stores: the handler (named by the function it
      refers to) and the positional and keyword arguments, either of which
      may be absent (`None`). */
  datatype Binding = Binding(handler: string, args: Option<seq<Value>>, kwargs: Option<map<string, Value>>)

  /** Which of the four call shapes `execute_callback` takes. */
  datatype Form = Both | PositionalOnly | KeywordOnly | Bare

  /** One invocation of a handler: what is passed, and through which branch. */
  datatype Call = Call(handler: string, args: seq<Value>, kwargs: map<string, Value>, form: Form)

  type Table = map<string, Binding>

  const Empty: Table := map[]

  /** Stores whatever arguments it is given, `None` included (the shape of
      `Button.register_callback`, which receives them from its caller). */
  function Bind(t: Table, action: string, handler: string, args: Option<seq<Value>>,
                kwargs: Option<map<string, Value>>): (t': Table)
    ensures action in t' && t'[action] == Binding(handler, args, kwargs)
    ensures t'.Keys == t.Keys + {action}
    ensures forall l :: l in t && l != action ==> t'[l] == t[l]
  {
    t[action := Binding(handler, args, kwargs)]
  }

  /** `register_callback(action, function, *args, **kwargs)`: the packed
      tuple and dict are always present, so neither is ever `None`. */
  function Register(t: Table, action: string, handler: string, args: seq<Value>,
                    kwargs: map<string, Value>): (t': Table)
    ensures action in t' && t'[action].handler == handler
    ensures t'[action].args == Some(args) && t'[action].kwargs == Some(kwargs)
    ensures t'.Keys == t.Keys + {action}
    ensures forall l :: l in t && l != action ==> t'[l] == t[l]
  {
    Bind(t, action, handler, Some(args), Some(kwargs))
  }

  /** `execute_callback(action)`: an unregistered action is skipped; a
      registered one calls its handler passing exactly the parts that are
      not `None`. */
  function Execute(t: Table, action: string): (c: Option<Call>)
    ensures c.None? <==> action !in t
    ensures c.Some? ==> c.value.handler == t[action].handler
    ensures c.Some? ==> c.value.args == t[action].args.GetOr([])
    ensures c.Some? ==> c.value.kwargs == t[action].kwargs.GetOr(map[])
    ensures c.Some? ==> (c.value.form == Both <==> t[action].args.Some? && t[action].kwargs.Some?)
    ensures c.Some? ==> (c.value.form == Bare <==> t[action].args.None? && t[action].kwargs.None?)
    ensures c.Some? ==> (c.value.form == PositionalOnly <==> t[action].args.Some? && t[action].kwargs.None?)
    ensures c.Some? ==> (c.value.form == KeywordOnly <==> t[action].args.None? && t[action].kwargs.Some?)
  {
    if action !in t then None
    else
      var b := t[action];
      if b.args.Some? && b.kwargs.Some? then Some(Call(b.handler, b.args.value, b.kwargs.value, Both))
      else if b.args.Some? then Some(Call(b.handler, b.args.value, map[], PositionalOnly))
      else if b.kwargs.Some? then Some(Call(b.handler, [], b.kwargs.value, KeywordOnly))
      else Some(Call(b.handler, [], map[], Bare))
  }

  /** After `register_callback` the action dispatches to the new handler with
      both argument parts, whatever was bound to it before. */
  lemma RegisterThenExecute(t: Table, action: string, handler: string, args: seq<Value>,
                            kwargs: map<string, Value>)
    ensures Execute(Register(t, action, handler, args, kwargs), action)
         == Some(Call(handler, args, kwargs, Both))
  {
  }

  /** Registering one action never changes what another action dispatches. */
  lemma RegisterIsolated(t: Table, action: string, other: string, handler: string,
                         args: seq<Value>, kwargs: map<string, Value>)
    requires other != action
    ensures Execute(Register(t, action, handler, args, kwargs), other) == Execute(t, other)
  {
  }
}

=== FILE: fade.dfy ===
/** The numeric core of `LEDs.fade_to` (oled-software/leds.py): every touched
    pixel moves from its current colour towards its target in `fade_steps`
    equal real-valued steps; after each step a channel is truncated toward
    zero (Python `int()`) and clamped to 0..255, and the truncated value is
    what the next step starts from. Gamma correction and the hardware write
    are not part of this model. */
module Fade {
  import opened Wrappers

  const MaxChannel := 255

  /** One logical RGB colour. The buffer holds whatever colours it is
      given; `fade_to` only ever writes channels within 0..255. */
  datatype Color = Color(r: int, g: int, b: int)

  predicate InRange(c: Color) {
    0 <= c.r <= MaxChannel && 0 <= c.g <= MaxChannel && 0 <= c.b <= MaxChannel
  }

  /** Python `int(x)` on a float: truncation toward zero. */
  function Trunc(x: real): (n: int)
    ensures 0.0 <= x ==> n as real <= x < n as real + 1.0
    ensures x < 0.0 ==> n as real - 1.0 < x <= n as real
  {
    if x >= 0.0 then x.Floor else -((-x).Floor)
  }

  /** `max(0, min(255, n))`. */
  function Clamp(n: int): (c: int)
    ensures 0 <= c <= MaxChannel
    ensures 0 <= n <= MaxChannel ==> c == n
    ensures n < 0 ==> c == 0
    ensures n > MaxChannel ==> c == MaxChannel
  {
    if n > MaxChannel then MaxChannel else if n < 0 then 0 else n
  }

  /** `(target - start) / fade_steps`, a true division. */
  function StepSize(start: int, target: int, steps: int): real
    requires steps != 0
  {
    (target - start) as real / steps as real
  }

  /** One step of one channel. */
  function Next(v: int, step: real): (w: int)
    ensures 0 <= w <= MaxChannel
  {
    Clamp(Trunc(v as real + step))
  }

  /** A channel after `k` steps. */
  function After(start: int, step: real, k: nat): (v: int)
    ensures k > 0 ==> 0 <= v <= MaxChannel
  {
    if k == 0 then start else Next(After(start, step, k - 1), step)
  }

  /** A pixel after `k` of the `steps` steps towards `target`. */
  function FadeColor(start: Color, target: Color, steps: int, k: nat): (c: Color)
    requires steps != 0
    ensures k > 0 ==> InRange(c)
  {
    Color(After(start.r, StepSize(start.r, target.r, steps), k),
          After(start.g, StepSize(start.g, target.g, steps), k),
          After(start.b, StepSize(start.b, target.b, steps), k))
  }

  /** The buffer after `k` steps: the first `|targets|` pixels fade, the
      rest are left alone. */
  function Faded(current: seq<Color>, targets: seq<Color>, steps: int, k: nat): (r: seq<Color>)
    requires steps != 0 && |targets| <= |current|
    ensures |r| == |current|
    ensures forall i :: 0 <= i < |targets| ==> r[i] == FadeColor(current[i], targets[i], steps, k)
    ensures forall i :: |targets| <= i < |current| ==> r[i] == current[i]
  {
    seq(|current|, i requires 0 <= i < |current| =>
      if i < |targets| then FadeColor(current[i], targets[i], steps, k) else current[i])
  }

  /** How many steps the loop completes: none for a non-positive count
      (`range` is empty), one when it may break and no effect is running,
      all of them otherwise. */
  function StepsTaken(steps: int, allowBreak: bool, running: bool): (n: nat)
    ensures steps <= 0 ==> n == 0
    ensures steps > 0 && allowBreak && !running ==> n == 1
    ensures steps > 0 && !(allowBreak && !running) ==> n == steps
  {
    if steps <= 0 then 0 else if allowBreak && !running then 1 else steps
  }

  datatype Error = IndexError | ZeroDivisionError

  /** The exception the step-size loop raises, if any. It visits the
      targets in order; at position `i` it first reads the current colour
      (an `IndexError` past the end of the buffer) and then divides by
      `fade_steps`. */
  function Raised(current: seq<Color>, targets: seq<Color>, steps: int): (e: Option<Error>)
    ensures e.None? <==> |targets| == 0 || (steps != 0 && |targets| <= |current|)
    ensures e == Some(ZeroDivisionError) <==> |targets| > 0 && |current| > 0 && steps == 0
  {
    if |targets| == 0 then None
    else if |current| == 0 then Some(IndexError)
    else if steps == 0 then Some(ZeroDivisionError)
    else if |targets| > |current| then Some(IndexError)
    else None
  }

  /** The logical buffer `fade_to` leaves behind when it raises nothing. */
  function FadeResult(current: seq<Color>, targets: seq<Color>, steps: int, allowBreak: bool,
                      running: bool): (r: seq<Color>)
    requires Raised(current, targets, steps).None?
    ensures |r| == |current|
    ensures forall i :: |targets| <= i < |current| ==> r[i] == current[i]
    ensures steps > 0 ==> forall i :: 0 <= i < |targets| ==> InRange(r[i])
    ensures steps <= 0 ==> r == current
  {
    if |targets| == 0 || steps <= 0 then current
    else Faded(current, targets, steps, StepsTaken(steps, allowBreak, running))
  }

  /** The three per-channel step sizes of one pixel. */
  datatype Sizes = Sizes(r: real, g: real, b: real)

  function SizesOf(start: Color, target: Color, steps: int): Sizes
    requires steps != 0
  {
    Sizes(StepSize(start.r, target.r, steps), StepSize(start.g, target.g, steps),
          StepSize(start.b, target.b, steps))
  }

  /** One step of one pixel. */
  function StepColor(c: Color, s: Sizes): Color
  {
    Color(Next(c.r, s.r), Next(c.g, s.g), Next(c.b, s.b))
  }

  /** Each round moves a pixel one step further along its fade. */
  lemma FadeColorStep(start: Color, target: Color, steps: int, k: nat)
    requires steps != 0
    ensures FadeColor(start, target, steps, k + 1)
         == StepColor(FadeColor(start, target, steps, k), SizesOf(start, target, steps))
  {
  }

  /** The buffer is `k` rounds into the fade of its first `|targets|` pixels. */
  predicate RoundsDone(colors: seq<Color>, current: seq<Color>, targets: seq<Color>, steps: int, k: nat)
    requires steps != 0 && |targets| <= |current|
  {
    && |colors| == |current|
    && (forall m :: |targets| <= m < |current| ==> colors[m] == current[m])
    && (forall m :: 0 <= m < |targets| ==> colors[m] == FadeColor(current[m], targets[m], steps, k))
  }

  /** A buffer `k` rounds in is exactly `Faded(..., k)`. */
  lemma RoundsDoneIsFaded(colors: seq<Color>, current: seq<Color>, targets: seq<Color>, steps: int, k: nat)
    requires steps != 0 && |targets| <= |current|
    requires RoundsDone(colors, current, targets, steps, k)
    ensures colors == Faded(current, targets, steps, k)
  {
  }

  /** One round of the fade loop: every targeted pixel takes one step. */
  method Round(colors: seq<Color>, current: seq<Color>, targets: seq<Color>, sizes: seq<Sizes>,
               steps: int, k: nat)
    returns (next: seq<Color>)
    requires steps != 0 && |targets| <= |current| && |sizes| == |targets|
    requires forall m :: 0 <= m < |targets| ==> sizes[m] == SizesOf(current[m], targets[m], steps)
    requires RoundsDone(colors, current, targets, steps, k)
    ensures RoundsDone(next, current, targets, steps, k + 1)
  {
    next := colors;
    var j := 0;
    while j < |targets|
      invariant 0 <= j <= |targets|
      invariant |next| == |current|
      invariant forall m :: |targets| <= m < |current| ==> next[m] == current[m]
      invariant forall m :: 0 <= m < j ==> next[m] == FadeColor(current[m], targets[m], steps, k + 1)
      invariant forall m :: j <= m < |targets| ==> next[m] == FadeColor(current[m], targets[m], steps, k)
    {
      FadeColorStep(current[j], targets[j], steps, k);
      next := next[j := StepColor(next[j], sizes[j])];
      j := j + 1;
    }
  }

  /** `fade_to(target_colors, fade_time, fade_steps, allow_effect_break)`
      on the logical buffer, with the loops of the source: first the step
      sizes, then `fade_steps` rounds that each move every targeted pixel
      one step, stopping after a round when breaking is allowed and no
      effect is running. The running flag is read as a parameter; the
      sleep between rounds is not modelled. */
  method FadeTo(current: seq<Color>, targets: seq<Color>, steps: int, allowBreak: bool, running: bool)
    returns (r: Result<seq<Color>, Error>)
    ensures r.Failure? <==> Raised(current, targets, steps).Some?
    ensures r.Failure? ==> r.error == Raised(current, targets, steps).value
    ensures r.Success? ==> r.value == FadeResult(current, targets, steps, allowBreak, running)
  {
    var sizes: seq<Sizes> := [];
    var i := 0;
    while i < |targets|
      invariant 0 <= i <= |targets| && i <= |current|
      invariant i > 0 ==> steps != 0
      invariant |sizes| == i
      invariant forall m :: 0 <= m < i ==> sizes[m] == SizesOf(current[m], targets[m], steps)
    {
      if i >= |current| {
        return Failure(IndexError);
      }
      if steps == 0 {
        return Failure(ZeroDivisionError);
      }
      sizes := sizes + [SizesOf(current[i], targets[i], steps)];
      i := i + 1;
    }
    if |targets| == 0 || steps <= 0 {
      return Success(current);
    }
    var colors := current;
    var k := 0;
    while k < steps
      invariant 0 <= k <= steps
      invariant allowBreak && !running ==> k == 0
      invariant RoundsDone(colors, current, targets, steps, k)
    {
      colors := Round(colors, current, targets, sizes, steps, k);
      k := k + 1;
      if allowBreak && !running {
        break;
      }
    }
    assert k == StepsTaken(steps, allowBreak, running);
    RoundsDoneIsFaded(colors, current, targets, steps, k);
    return Success(colors);
  }

  // ---------------------------------------------------------------------
  // Properties of one channel
  // ---------------------------------------------------------------------

  /** A non-negative step never moves an in-range channel down, and moves
      it up by at most the step. */
  lemma RisingStep(v: int, step: real)
    requires 0 <= v <= MaxChannel && 0.0 <= step
    ensures v <= Next(v, step)
    ensures Next(v, step) as real <= v as real + step
  {
  }

  /** A negative step never moves an in-range channel up; while it stays
      positive it moves down by at least the step. */
  lemma FallingStep(v: int, step: real)
    requires 0 <= v <= MaxChannel && step < 0.0
    ensures Next(v, step) <= v
    ensures Next(v, step) == 0 || Next(v, step) as real <= v as real + step
  {
  }

  /** The straight line from `start` after `k` steps of `step`, in exact
      arithmetic. */
  function Line(start: int, step: real, k: nat): real
  {
    if k == 0 then start as real else Line(start, step, k - 1) + step
  }

  /** The line is linear in the number of steps. */
  lemma {:induction false} LineIsLinear(start: int, step: real, k: nat)
    ensures Line(start, step, k) == start as real + k as real * step
  {
    if k > 0 {
      LineIsLinear(start, step, k - 1);
      assert (k - 1) as real * step + step == k as real * step;
    }
  }

  /** Fading up from an in-range start with a non-negative step: the
      channel never decreases and never rises above the straight line. */
  lemma {:induction false} Rising(start: int, step: real, k: nat)
    requires 0 <= start <= MaxChannel && 0.0 <= step
    ensures start <= After(start, step, k)
    ensures After(start, step, k) as real <= Line(start, step, k)
    ensures k > 0 ==> After(start, step, k - 1) <= After(start, step, k)
  {
    if k > 0 {
      Rising(start, step, k - 1);
      RisingStep(After(start, step, k - 1), step);
    }
  }

  /** After `fade_steps` steps the line reaches the target exactly. */
  lemma LineReachesTarget(start: int, target: int, steps: int)
    requires 0 < steps
    ensures Line(start, StepSize(start, target, steps), steps) == target as real
  {
    var step := StepSize(start, target, steps);
    LineIsLinear(start, step, steps);
    assert steps as real * step == (target - start) as real;
  }

  /** With a non-negative step the line rises. */
  lemma {:induction false} LineRises(start: int, step: real, k: nat, n: nat)
    requires 0.0 <= step && k <= n
    ensures Line(start, step, k) <= Line(start, step, n)
    decreases n - k
  {
    if k < n {
      LineRises(start, step, k + 1, n);
    }
  }

  /** Fading up towards a target: after every step the channel lies
      between the start and the target. */
  lemma RisingFade(start: int, target: int, steps: int, k: nat)
    requires 0 <= start <= MaxChannel && start <= target && 0 < steps && k <= steps
    ensures var step := StepSize(start, target, steps);
      start <= After(start, step, k) <= target
  {
    var step := StepSize(start, target, steps);
    assert 0.0 <= step;
    LineReachesTarget(start, target, steps);
    LineRises(start, step, k, steps);
    Rising(start, step, k);
  }

  /** Fading down from an in-range start with a negative step: the channel
      never increases, never leaves 0..start, and stays on or below the
      straight line until it reaches zero. */
  lemma {:induction false} Falling(start: int, step: real, k: nat)
    requires 0 <= start <= MaxChannel && step < 0.0
    ensures 0 <= After(start, step, k) <= start
    ensures k > 0 ==> After(start, step, k) <= After(start, step, k - 1)
    ensures After(start, step, k) == 0 || After(start, step, k) as real <= Line(start, step, k)
  {
    if k > 0 {
      Falling(start, step, k - 1);
      FallingStep(After(start, step, k - 1), step);
    }
  }

  /** A completed fade down never ends above its target (or above zero,
      for a negative target): fading to black always reaches black. */
  lemma FallingEndsAtOrBelow(start: int, target: int, steps: int)
    requires 0 <= start <= MaxChannel && target < start && 0 < steps
    ensures var end := After(start, StepSize(start, target, steps), steps);
      end <= target || end == 0
  {
    var step := StepSize(start, target, steps);
    assert step < 0.0;
    LineReachesTarget(start, target, steps);
    Falling(start, step, steps);
  }

  /** Fading an in-range channel to itself leaves it where it is. */
  lemma {:induction false} FadeToSelf(v: int, k: nat)
    requires 0 <= v <= MaxChannel
    ensures After(v, 0.0, k) == v
  {
    if k > 0 {
      FadeToSelf(v, k - 1);
    }
  }

  /** Because each step starts from the truncated value, a slow rise can
      stall: fading 0 to 10 over 50 steps (step 0.2) never leaves 0. */
  lemma RiseCanStall()
    ensures StepSize(0, 10, 50) == 0.2
    ensures forall k: nat :: After(0, 0.2, k) == 0
  {
    forall k: nat ensures After(0, 0.2, k) == 0 {
      StallAt(k);
    }
  }

  lemma {:induction false} StallAt(k: nat)
    ensures After(0, 0.2, k) == 0
  {
    if k > 0 {
      StallAt(k - 1);
    }
  }

  /** ... and a fall can overshoot: fading 10 to 5 over 3 steps ends at 4. */
  lemma FallCanOvershoot()
    ensures After(10, StepSize(10, 5, 3), 3) == 4
  {
    var step := StepSize(10, 5, 3);
    assert After(10, step, 1) == 8;
    assert After(10, step, 2) == 6;
  }

  // ---------------------------------------------------------------------
  // Properties of the buffer
  // ---------------------------------------------------------------------

  predicate AllInRange(cs: seq<Color>) {
    forall i :: 0 <= i < |cs| ==> InRange(cs[i])
  }

  /** Fading an in-range buffer onto itself changes nothing. */
  lemma FadeOntoSelf(current: seq<Color>, steps: int, allowBreak: bool, running: bool)
    requires AllInRange(current)
    ensures Raised(current, current, steps).None? ==>
      FadeResult(current, current, steps, allowBreak, running) == current
  {
    if Raised(current, current, steps).None? && |current| > 0 && steps > 0 {
      var k := StepsTaken(steps, allowBreak, running);
      var r := FadeResult(current, current, steps, allowBreak, running);
      forall i | 0 <= i < |current| ensures r[i] == current[i] {
        ColorFadeToSelf(current[i], steps, k);
      }
    }
  }

  /** An in-range pixel faded towards itself stays put. */
  lemma ColorFadeToSelf(c: Color, steps: int, k: nat)
    requires InRange(c) && steps != 0
    ensures FadeColor(c, c, steps, k) == c
  {
    ZeroStep(c.r, steps);
    ZeroStep(c.g, steps);
    ZeroStep(c.b, steps);
    FadeToSelf(c.r, k);
    FadeToSelf(c.g, k);
    FadeToSelf(c.b, k);
  }

  lemma ZeroStep(v: int, steps: int)
    requires steps != 0
    ensures StepSize(v, v, steps) == 0.0
  {
  }

  /** A full fade of an in-range buffer to black ends all black. */
  lemma FadeToBlackIsBlack(current: seq<Color>, steps: int, running: bool)
    requires AllInRange(current) && 0 < steps
    ensures var r := FadeResult(current, seq(|current|, _ => Color(0, 0, 0)), steps, false, running);
      forall i :: 0 <= i < |r| ==> r[i] == Color(0, 0, 0)
  {
    var black := seq(|current|, _ => Color(0, 0, 0));
    var r := FadeResult(current, black, steps, false, running);
    assert StepsTaken(steps, false, running) == steps;
    forall i | 0 <= i < |r| ensures r[i] == Color(0, 0, 0) {
      var c := current[i];
      ChannelToZero(c.r, steps);
      ChannelToZero(c.g, steps);
      ChannelToZero(c.b, steps);
    }
  }

  /** One channel of a full fade to zero ends at zero. */
  lemma ChannelToZero(v: int, steps: int)
    requires 0 <= v <= MaxChannel && 0 < steps
    ensures After(v, StepSize(v, 0, steps), steps) == 0
  {
    if v > 0 {
      FallingEndsAtOrBelow(v, 0, steps);
    } else {
      assert StepSize(v, 0, steps) == 0.0;
      FadeToSelf(v, steps);
    }
  }

  /** Where a full fade leaves one channel that started in range: a rise
      ends between the start and the target, a fall ends at or below the
      start and at or below the target, unless it stopped at zero. */
  predicate ChannelFaded(start: int, target: int, v: int) {
    if start <= target then start <= v <= target
    else v <= start && (v <= target || v == 0)
  }

  predicate ColorFaded(start: Color, target: Color, c: Color) {
    && ChannelFaded(start.r, target.r, c.r)
    && ChannelFaded(start.g, target.g, c.g)
    && ChannelFaded(start.b, target.b, c.b)
  }

  /** One channel of a full fade moves towards its target. */
  lemma ChannelFullFade(start: int, target: int, steps: int)
    requires 0 <= start <= MaxChannel && 0 < steps
    ensures ChannelFaded(start, target, After(start, StepSize(start, target, steps), steps))
  {
    var step := StepSize(start, target, steps);
    if start <= target {
      RisingFade(start, target, steps, steps);
      assert start <= After(start, step, steps) <= target;
    } else {
      FallingEndsAtOrBelow(start, target, steps);
      FallingBelowStart(start, target, steps);
    }
  }

  /** A fade down never rises above its start. */
  lemma FallingBelowStart(start: int, target: int, steps: int)
    requires 0 <= start <= MaxChannel && target < start && 0 < steps
    ensures After(start, StepSize(start, target, steps), steps) <= start
  {
    var step := StepSize(start, target, steps);
    assert step < 0.0;
    Falling(start, step, steps);
  }

  /** A full fade (no break) of an in-range buffer moves every targeted
      pixel towards its target. */
  lemma FullFadeTowards(current: seq<Color>, targets: seq<Color>, steps: int, running: bool)
    requires AllInRange(current) && 0 < steps && |targets| <= |current|
    ensures var r := FadeResult(current, targets, steps, false, running);
      forall i :: 0 <= i < |targets| ==> ColorFaded(current[i], targets[i], r[i])
  {
    var r := FadeResult(current, targets, steps, false, running);
    forall i | 0 <= i < |targets| ensures ColorFaded(current[i], targets[i], r[i]) {
      var c, t := current[i], targets[i];
      assert r[i] == FadeColor(c, t, steps, steps);
      ChannelFullFade(c.r, t.r, steps);
      ChannelFullFade(c.g, t.g, steps);
      ChannelFullFade(c.b, t.b, steps);
    }
  }
}

=== FILE: leds.dfy ===
/** The logical state of the `LEDs` strip (oled-software/leds.py): the
    colour buffer, the bounce cursor, and the bookkeeping around effects,
    the backlight override and resuming. Thread launches are synchronous
    state updates, the resume timer is a pending deadline in milliseconds,
    and the hardware pixels (with their gamma correction) are not modelled:
    only `current_colors` is. */
module Leds {
  import opened Wrappers
  import opened Fade

  const Black := Color(0, 0, 0)
  const BounceColor := Color(255, 100, 0)
  const HeartbeatColor := Color(100, 100, 50)
  const BacklightColor := Color(200, 200, 50)

  /** `self.fade_steps`, used when `fade_to` is given no step count. */
  const DefaultFadeSteps := 50
  /** `bounce` always fades with ten steps. */
  const BounceFadeSteps := 10

  /** The defaults of `start_bounce(target_color, delay=0, fade_time=0.01,
      fade_steps=10)`. */
  const BounceDelayMs := 0
  const BounceFadeTimeMs := 10
  const BounceStartSteps := 10
  /** The defaults of `start_heartbeat(target_color, on_delay=0.3,
      off_delay=10, fade_time=2, fade_steps=50)`. */
  const HeartbeatOnDelayMs := 300
  const HeartbeatOffDelayMs := 10000
  const HeartbeatFadeTimeMs := 2000
  const HeartbeatFadeSteps := 50

  /** The recorded effect: `self.effect` together with `self.effect_args`
      (times in milliseconds). */
  datatype Effect =
    | NoEffect
    | Bounce(color: Color, delayMs: int, fadeTimeMs: int, fadeSteps: int)
    | Heartbeat(color: Color, onDelayMs: int, offDelayMs: int, fadeTimeMs: int, fadeSteps: int)

  datatype Strip = Strip(
    count: nat,                  // number_of_leds
    current: seq<Color>,         // current_colors
    resumeColors: seq<Color>,    // resume_colors
    resumeEffect: bool,          // resume_effect
    direction: int,              // direction of the bouncing LED
    index: int,                  // current_index of the bouncing LED
    effectRunning: bool,         // effect_running
    effect: Effect,
    syncMethod: Option<string>,  // effect_sync_method
    syncValue: int,              // effect_sync_value
    backlightOn: bool,           // backlight_on
    resumeTimer: Option<int>)    // deadline of the pending effect_timer, if any

  /** What every reachable strip satisfies: the buffer has one entry per
      LED, the resume snapshot is empty or a copy of such a buffer, and a
      running or resumable effect has been recorded. */
  ghost predicate Valid(s: Strip) {
    && |s.current| == s.count
    && |s.resumeColors| <= s.count
    && ((s.effectRunning || s.resumeEffect) ==> s.effect != NoEffect)
  }

  /** Every entry of `cs` is `c`. */
  predicate AllEqual(cs: seq<Color>, c: Color) {
    forall i :: 0 <= i < |cs| ==> cs[i] == c
  }

  /** `[color] * number_of_leds`. */
  function Uniform(n: nat, c: Color): (cs: seq<Color>)
    ensures |cs| == n && AllEqual(cs, c)
  {
    seq(n, _ => c)
  }

  /** `LEDs.__init__`: all black, bounce cursor at 0 moving up, nothing
      running, nothing recorded. */
  function NewStrip(count: nat): (s: Strip)
    ensures Valid(s)
    ensures |s.current| == count && AllEqual(s.current, Black)
    ensures s.resumeColors == [] && !s.resumeEffect && !s.effectRunning && !s.backlightOn
    ensures s.index == 0 && s.direction == 1 && s.effect == NoEffect && s.resumeTimer == None
  {
    Strip(count, Uniform(count, Black), [], false, 1, 0, false, NoEffect, None, 0, false, None)
  }

  // ---------------------------------------------------------------------
  // Buffer operations
  // ---------------------------------------------------------------------

  /** `fill(color)`: every one of the N entries becomes `color`. */
  function Fill(s: Strip, c: Color): (r: Strip)
    ensures |r.current| == s.count && AllEqual(r.current, c)
    ensures r == s.(current := r.current)
  {
    s.(current := Uniform(s.count, c))
  }

  /** `clear()`: every one of the N entries becomes black. */
  function Clear(s: Strip): (r: Strip)
    ensures |r.current| == s.count && AllEqual(r.current, Black)
    ensures r == s.(current := r.current)
  {
    s.(current := Uniform(s.count, Black))
  }

  /** `fade_to(target_colors, fade_steps=steps, allow_effect_break)` on the
      strip; `None` stands for the default step count. It raises exactly
      when the step-size loop does, and then changes nothing; otherwise
      only the first `|targets|` entries change, and each of them ends in
      0..255 once at least one step is taken. When every round runs (no
      break, or an effect running), an in-range buffer moves towards the
      targets entry by entry. */
  function FadeTo(s: Strip, targets: seq<Color>, steps: Option<int>, allowBreak: bool): (r: Result<Strip, Error>)
    ensures r.Failure? <==> Raised(s.current, targets, steps.GetOr(DefaultFadeSteps)).Some?
    ensures r.Success? ==> r.value == s.(current := r.value.current)
    ensures r.Success? ==> |r.value.current| == |s.current|
    ensures r.Success? ==> forall i :: |targets| <= i < |s.current| ==> r.value.current[i] == s.current[i]
    ensures r.Success? && steps.GetOr(DefaultFadeSteps) > 0 ==>
      forall i :: 0 <= i < |targets| ==> InRange(r.value.current[i])
    ensures r.Success? && (!allowBreak || s.effectRunning) && steps.GetOr(DefaultFadeSteps) > 0 && AllInRange(s.current)
      ==> forall i :: 0 <= i < |targets| ==> ColorFaded(s.current[i], targets[i], r.value.current[i])
  {
    var n := steps.GetOr(DefaultFadeSteps);
    FadeToTowards(s.current, targets, n, allowBreak, s.effectRunning);
    match Raised(s.current, targets, n)
    case Some(e) => Failure(e)
    case None => Success(s.(current := FadeResult(s.current, targets, n, allowBreak, s.effectRunning)))
  }

  /** A fade that runs every round moves each targeted in-range entry
      towards its target. */
  lemma FadeToTowards(current: seq<Color>, targets: seq<Color>, steps: int, allowBreak: bool, running: bool)
    ensures Raised(current, targets, steps).None? && (!allowBreak || running) && 0 < steps && AllInRange(current)
      ==> var r := FadeResult(current, targets, steps, allowBreak, running);
      forall i :: 0 <= i < |targets| ==> ColorFaded(current[i], targets[i], r[i])
  {
    if Raised(current, targets, steps).None? && (!allowBreak || running) && 0 < steps && AllInRange(current) {
      assert StepsTaken(steps, allowBreak, running) == StepsTaken(steps, false, running);
      FullFadeTowards(current, targets, steps, running);
    }
  }

  /** `fill_fade(color)`: a full default fade of every entry to `color`. On
      a valid strip it never raises, and afterwards every entry is in
      range; from an in-range buffer every entry has moved towards
      `color`. */
  function FillFade(s: Strip, c: Color): (r: Result<Strip, Error>)
    ensures Valid(s) ==> r.Success? && r.value == s.(current := r.value.current)
    ensures Valid(s) ==> |r.value.current| == s.count
    ensures Valid(s) ==> forall i :: 0 <= i < s.count ==> InRange(r.value.current[i])
    ensures Valid(s) && AllInRange(s.current) ==>
      forall i :: 0 <= i < s.count ==> ColorFaded(s.current[i], c, r.value.current[i])
  {
    FillFadeTowards(s, c);
    FadeTo(s, Uniform(s.count, c), None, false)
  }

  lemma FillFadeTowards(s: Strip, c: Color)
    ensures Valid(s) && AllInRange(s.current) ==>
      var r := FadeResult(s.current, Uniform(s.count, c), DefaultFadeSteps, false, s.effectRunning);
      forall i :: 0 <= i < s.count ==> ColorFaded(s.current[i], c, r[i])
  {
    if Valid(s) && AllInRange(s.current) {
      FullFadeTowards(s.current, Uniform(s.count, c), DefaultFadeSteps, s.effectRunning);
    }
  }

  /** Fading an in-range strip to black leaves it all black. */
  lemma FillFadeBlack(s: Strip)
    requires Valid(s) && AllInRange(s.current)
    ensures FillFade(s, Black).Success?
    ensures AllEqual(FillFade(s, Black).value.current, Black)
  {
    if s.count > 0 {
      FadeToBlackIsBlack(s.current, DefaultFadeSteps, s.effectRunning);
      assert Uniform(s.count, Black) == seq(|s.current|, _ => Color(0, 0, 0));
    }
  }

  // ---------------------------------------------------------------------
  // Effects
  // ---------------------------------------------------------------------

  /** `stop_effect()`. */
  function StopEffect(s: Strip): (r: Strip)
    ensures !r.effectRunning
    ensures r.(effectRunning := s.effectRunning) == s
  {
    s.(effectRunning := false)
  }

  /** `start_bounce(target_color, delay, fade_time, fade_steps)`: records the
      effect with the default bounce colour for a missing one, and the loop
      it launches marks the effect running. A running effect is not
      stopped first. */
  function StartBounce(s: Strip, color: Option<Color>, delayMs: int, fadeTimeMs: int, fadeSteps: int): (r: Strip)
    ensures r.effectRunning && r.effect.Bounce?
    ensures r.effect.color == (if color.Some? then color.value else BounceColor)
    ensures r.effect.delayMs == delayMs && r.effect.fadeTimeMs == fadeTimeMs && r.effect.fadeSteps == fadeSteps
    ensures r.(effect := s.effect, effectRunning := s.effectRunning) == s
  {
    s.(effect := Bounce(color.GetOr(BounceColor), delayMs, fadeTimeMs, fadeSteps), effectRunning := true)
  }

  /** `start_heartbeat(target_color, on_delay, off_delay, fade_time,
      fade_steps)`, likewise with the default heartbeat colour. */
  function StartHeartbeat(s: Strip, color: Option<Color>, onDelayMs: int, offDelayMs: int, fadeTimeMs: int,
                          fadeSteps: int): (r: Strip)
    ensures r.effectRunning && r.effect.Heartbeat?
    ensures r.effect.color == (if color.Some? then color.value else HeartbeatColor)
    ensures r.effect.onDelayMs == onDelayMs && r.effect.offDelayMs == offDelayMs
    ensures r.effect.fadeTimeMs == fadeTimeMs && r.effect.fadeSteps == fadeSteps
    ensures r.(effect := s.effect, effectRunning := s.effectRunning) == s
  {
    s.(effect := Heartbeat(color.GetOr(HeartbeatColor), onDelayMs, offDelayMs, fadeTimeMs, fadeSteps),
       effectRunning := true)
  }

  /** `sync_effect_on(sync_method, sync_value)`. */
  function SyncEffectOn(s: Strip, syncMethod: Option<string>, syncValue: int): (r: Strip)
    ensures r.syncMethod == syncMethod && r.syncValue == syncValue
    ensures r.(syncMethod := s.syncMethod, syncValue := s.syncValue) == s
  {
    s.(syncMethod := syncMethod, syncValue := syncValue)
  }

  /** Restart the recorded effect with its recorded arguments. */
  function Restart(s: Strip): (r: Strip)
    ensures r.effect == s.effect
    ensures s.effect != NoEffect ==> r == s.(effectRunning := true)
    ensures s.effect == NoEffect ==> r == s
  {
    match s.effect
    case NoEffect => s
    case Bounce(c, d, t, n) => StartBounce(s, Some(c), d, t, n)
    case Heartbeat(c, on, off, t, n) => StartHeartbeat(s, Some(c), on, off, t, n)
  }

  // ---------------------------------------------------------------------
  // Pause, backlight and resume
  // ---------------------------------------------------------------------

  /** `pause()`: stop the effect, remember that one was running (a flag
      that is only ever set), and snapshot the buffer. */
  function Pause(s: Strip): (r: Strip)
    ensures !r.effectRunning
    ensures r.resumeEffect == (s.resumeEffect || s.effectRunning)
    ensures r.resumeColors == s.current
    ensures r.(effectRunning := s.effectRunning, resumeEffect := s.resumeEffect, resumeColors := s.resumeColors) == s
  {
    s.(resumeEffect := s.resumeEffect || s.effectRunning, effectRunning := false, resumeColors := s.current)
  }

  /** `backlight(target_color)`: only when the backlight is off, pause and
      fade every entry to the given colour (the default backlight colour
      for a missing one), then mark the backlight on. The fade runs on its
      own thread in the source, so an exception in it would not reach the
      caller; on a valid strip there is none. */
  function Backlight(s: Strip, target: Option<Color>): (r: Strip)
    ensures s.backlightOn ==> r == s
    ensures !s.backlightOn ==> r.backlightOn && !r.effectRunning && r.resumeColors == s.current
    ensures !s.backlightOn ==> r.resumeEffect == (s.resumeEffect || s.effectRunning)
    ensures !s.backlightOn && Valid(s) ==>
      r == Pause(s).(current := r.current, backlightOn := true) &&
      |r.current| == s.count && forall i :: 0 <= i < s.count ==> InRange(r.current[i])
    ensures !s.backlightOn && Valid(s) && AllInRange(s.current) ==>
      forall i :: 0 <= i < s.count ==> ColorFaded(s.current[i], target.GetOr(BacklightColor), r.current[i])
  {
    if s.backlightOn then s
    else
      var p := Pause(s);
      var f := FillFade(p, target.GetOr(BacklightColor));
      (if f.Success? then f.value else p).(backlightOn := true)
  }

  /** `resume(0)`: the backlight goes off; then either fade to black and
      restart the recorded effect, or fade back to the snapshot. The
      pending timer, if any, stays pending, and only the buffer, the
      backlight flag and the running flag change. */
  function ResumeNow(s: Strip): (r: Result<Strip, Error>)
    ensures Valid(s) ==> r.Success?
    ensures r.Success? ==>
      r.value == s.(current := r.value.current, backlightOn := false, effectRunning := r.value.effectRunning)
    ensures r.Success? && s.resumeEffect && s.effect != NoEffect ==> r.value.effectRunning
    ensures r.Success? && !(s.resumeEffect && s.effect != NoEffect) ==> r.value.effectRunning == s.effectRunning
    ensures Valid(s) && s.resumeEffect && AllInRange(s.current) ==>
      |r.value.current| == s.count && AllEqual(r.value.current, Black)
    ensures Valid(s) && !s.resumeEffect ==>
      r.value.current == FadeResult(s.current, s.resumeColors, DefaultFadeSteps, false, s.effectRunning)
    ensures Valid(s) && !s.resumeEffect && AllInRange(s.current) ==>
      && (forall i :: 0 <= i < |s.resumeColors| ==> ColorFaded(s.current[i], s.resumeColors[i], r.value.current[i]))
      && (forall i :: |s.resumeColors| <= i < s.count ==> r.value.current[i] == s.current[i])
  {
    ResumeFades(s);
    var b := s.(backlightOn := false);
    if b.resumeEffect then
      var f :- FillFade(b, Black);
      Success(Restart(f))
    else
      FadeTo(b, b.resumeColors, None, false)
  }

  /** The fades `resume(0)` makes: to black for an effect, to the snapshot
      otherwise. */
  lemma ResumeFades(s: Strip)
    ensures Valid(s) && s.resumeEffect && AllInRange(s.current) ==>
      AllEqual(FillFade(s.(backlightOn := false), Black).value.current, Black)
    ensures Valid(s) && !s.resumeEffect && AllInRange(s.current) ==>
      forall i :: 0 <= i < |s.resumeColors| ==>
        ColorFaded(s.current[i], s.resumeColors[i],
                   FadeResult(s.current, s.resumeColors, DefaultFadeSteps, false, s.effectRunning)[i])
  {
    if Valid(s) && AllInRange(s.current) {
      if s.resumeEffect {
        FillFadeBlack(s.(backlightOn := false));
      } else {
        FullFadeTowards(s.current, s.resumeColors, DefaultFadeSteps, s.effectRunning);
      }
    }
  }

  /** `resume(timeout)`: a positive timeout (in milliseconds) replaces any
      pending resume with one due at `now + timeout`; otherwise resume at
      once. */
  function Resume(s: Strip, timeoutMs: int, now: int): (r: Result<Strip, Error>)
    ensures timeoutMs > 0 ==> r == Success(s.(resumeTimer := Some(now + timeoutMs)))
    ensures timeoutMs <= 0 ==> r == ResumeNow(s)
  {
    if timeoutMs > 0 then Success(s.(resumeTimer := Some(now + timeoutMs))) else ResumeNow(s)
  }

  /** The pending resume timer fires once its deadline has passed: the
      slot empties and `resume(0)` runs. */
  function FireResumeTimer(s: Strip, now: int): (r: Result<Strip, Error>)
    ensures s.resumeTimer.None? || now < s.resumeTimer.value ==> r == Success(s)
    ensures s.resumeTimer.Some? && now >= s.resumeTimer.value ==> r == ResumeNow(s.(resumeTimer := None))
  {
    if s.resumeTimer.Some? && now >= s.resumeTimer.value then ResumeNow(s.(resumeTimer := None))
    else Success(s)
  }

  /** The backlight override is idempotent while it is on. */
  lemma BacklightIdempotent(s: Strip, first: Option<Color>, second: Option<Color>)
    ensures Backlight(Backlight(s, first), second) == Backlight(s, first)
  {
  }

  /** Pausing and resuming with no effect involved restores the snapshot
      exactly: fading an in-range buffer onto itself changes nothing. */
  lemma PauseThenResumeRestores(s: Strip)
    requires Valid(s) && AllInRange(s.current) && !s.effectRunning && !s.resumeEffect
    ensures ResumeNow(Pause(s)) == Success(Pause(s).(backlightOn := false))
    ensures ResumeNow(Pause(s)).value.current == s.current
  {
    var p := Pause(s).(backlightOn := false);
    FadeOntoSelf(p.current, DefaultFadeSteps, false, p.effectRunning);
  }

  /** Pausing a running effect and resuming restarts the same effect, with
      the same arguments, on an all-black strip. */
  lemma PauseThenResumeRestarts(s: Strip)
    requires Valid(s) && AllInRange(s.current) && s.effectRunning
    ensures ResumeNow(Pause(s)).Success?
    ensures var r := ResumeNow(Pause(s)).value;
      r.effectRunning && r.effect == s.effect && r.resumeEffect && !r.backlightOn &&
      |r.current| == s.count && AllEqual(r.current, Black)
  {
    FillFadeBlack(Pause(s).(backlightOn := false));
  }

  /** Resuming by hand does not cancel a pending timed resume. */
  lemma ManualResumeKeepsTimer(s: Strip, deadline: int)
    requires Valid(s) && s.resumeTimer == Some(deadline)
    ensures ResumeNow(s).Success? && ResumeNow(s).value.resumeTimer == Some(deadline)
  {
  }

  /** Only one timed resume is ever pending: a second `resume(timeout)`
      replaces the first, whatever their deadlines. */
  lemma TimedResumeReplaces(s: Strip, t1: int, now1: int, t2: int, now2: int)
    requires t1 > 0 && t2 > 0
    ensures Resume(Resume(s, t1, now1).value, t2, now2) == Resume(s, t2, now2)
  {
  }

  /** A timed resume does nothing before its deadline; once due it is
      `resume(0)` on the strip as it was, with the slot emptied. */
  lemma TimedResumeFires(s: Strip, timeoutMs: int, now: int, later: int)
    requires timeoutMs > 0
    ensures var p := Resume(s, timeoutMs, now).value;
      && (later < now + timeoutMs ==> FireResumeTimer(p, later) == Success(p))
      && (later >= now + timeoutMs ==> FireResumeTimer(p, later) == ResumeNow(s.(resumeTimer := None)))
  {
  }

  // ---------------------------------------------------------------------
  // The bounce effect
  // ---------------------------------------------------------------------

  /** `max(0, min(number_of_leds - 1, i))`. */
  function ClampIndex(count: int, i: int): (j: int)
    ensures 0 <= j
    ensures 0 < count ==> j < count
    ensures 0 <= i < count ==> j == i
  {
    if count - 1 < i then (if count - 1 < 0 then 0 else count - 1) else if i < 0 then 0 else i
  }

  /** `tuple(int(0.5 * c) for c in color)`. */
  function Half(c: Color): Color {
    Color(Trunc(0.5 * c.r as real), Trunc(0.5 * c.g as real), Trunc(0.5 * c.b as real))
  }

  /** For in-range colours the half brightness is integer halving. */
  lemma HalfIsHalving(c: Color)
    requires InRange(c)
    ensures Half(c) == Color(c.r / 2, c.g / 2, c.b / 2)
    ensures InRange(Half(c))
  {
    HalfChannel(c.r);
    HalfChannel(c.g);
    HalfChannel(c.b);
  }

  lemma HalfChannel(v: int)
    requires 0 <= v
    ensures Trunc(0.5 * v as real) == v / 2
  {
    var q := v / 2;
    assert v == 2 * q || v == 2 * q + 1;
    assert q as real <= 0.5 * v as real < q as real + 1.0;
  }

  /** Python list indexing accepts `-n <= i < n`. */
  predicate IndexOk(n: nat, i: int) {
    -(n as int) <= i < n
  }

  function PyIndex(n: nat, i: int): (j: nat)
    requires IndexOk(n, i)
    ensures j < n
  {
    if i < 0 then i + n else i
  }

  /** The target buffer of one bounce step: starting from the current
      buffer, the clamped neighbours at distance two go black, then those
      at distance one get half brightness, then the cursor gets the colour.
      Any index outside the list raises `IndexError`. */
  function Window(current: seq<Color>, count: int, index: int, color: Color): (r: Result<seq<Color>, Error>)
    ensures r.Failure? ==> r.error == IndexError
    ensures r.Success? ==> |r.value| == |current|
    ensures r.Success? <==>
      && ClampIndex(count, index - 2) < |current| && ClampIndex(count, index + 2) < |current|
      && ClampIndex(count, index - 1) < |current| && ClampIndex(count, index + 1) < |current|
      && IndexOk(|current|, index)
  {
    var n := |current|;
    var far0, far1 := ClampIndex(count, index - 2), ClampIndex(count, index + 2);
    var near0, near1 := ClampIndex(count, index - 1), ClampIndex(count, index + 1);
    if far0 < n && far1 < n && near0 < n && near1 < n && IndexOk(n, index) then
      var h := Half(color);
      Success(current[far0 := Black][far1 := Black][near0 := h][near1 := h][PyIndex(n, index) := color])
    else
      Failure(IndexError)
  }

  function Distance(i: int, j: int): nat {
    if i < j then j - i else i - j
  }

  /** The window described by distance from the cursor alone. */
  function Expected(current: seq<Color>, index: int, color: Color): (w: seq<Color>)
    ensures |w| == |current|
  {
    seq(|current|, j requires 0 <= j < |current| =>
      if j == index then color
      else if Distance(j, index) == 1 then Half(color)
      else if Distance(j, index) == 2 then Black
      else current[j])
  }

  /** With the cursor on the strip, the clamping never lets a later write
      be undone: the cursor holds the colour, its neighbours half of it,
      the pixels two away black, and every other pixel is untouched. */
  lemma WindowShape(current: seq<Color>, index: int, color: Color)
    requires 0 <= index < |current|
    ensures Window(current, |current|, index, color) == Success(Expected(current, index, color))
  {
    var n, h := |current|, Half(color);
    var far0, far1 := ClampIndex(n, index - 2), ClampIndex(n, index + 2);
    var near0, near1 := ClampIndex(n, index - 1), ClampIndex(n, index + 1);
    var w := current[far0 := Black][far1 := Black][near0 := h][near1 := h][index := color];
    assert Window(current, n, index, color) == Success(w);
    assert near0 == index - 1 || near0 == index;
    assert near1 == index + 1 || near1 == index;
    assert far0 == index - 2 || far0 == near0;
    assert far1 == index + 2 || far1 == near1;
    var e := Expected(current, index, color);
    forall j | 0 <= j < n ensures w[j] == e[j] {
    }
    assert w == e;
  }

  /** With the cursor on a strip of the right length, the bounce window
      is the shape `Expected` describes. */
  lemma BounceWindow(s: Strip, color: Color)
    ensures 0 <= s.index < |s.current| == s.count ==>
      Window(s.current, s.count, s.index, color) == Success(Expected(s.current, s.index, color))
  {
    if 0 <= s.index < |s.current| == s.count {
      WindowShape(s.current, s.index, color);
    }
  }

  /** One `bounce(target_color, fade_time, fade_steps)` tick: fade (ten
      steps, breakable) to the window, then move the cursor and turn round
      on reaching either end. The fade arguments are accepted and unused.
      With the cursor on the strip the fade target is the window shape
      `Expected` describes. */
  function BounceTick(s: Strip, color: Color, fadeTimeMs: int, fadeSteps: int): (r: Result<Strip, Error>)
    ensures r.Failure? <==> Window(s.current, s.count, s.index, color).Failure?
    ensures 0 <= s.index < |s.current| == s.count ==>
      r.Success? && r.value.current
        == FadeResult(s.current, Expected(s.current, s.index, color), BounceFadeSteps, true, s.effectRunning)
    ensures r.Success? ==> r.value.index == s.index + s.direction
    ensures r.Success? ==>
      r.value.direction == if r.value.index == 0 || r.value.index == |s.current| - 1 then -s.direction else s.direction
    ensures r.Success? ==> |r.value.current| == |s.current|
    ensures r.Success? ==>
      r.value == s.(current := r.value.current, index := r.value.index, direction := r.value.direction)
  {
    BounceWindow(s, color);
    var w :- Window(s.current, s.count, s.index, color);
    var faded := FadeResult(s.current, w, BounceFadeSteps, true, s.effectRunning);
    var i := s.index + s.direction;
    Success(s.(current := faded, index := i,
               direction := if i == 0 || i == |faded| - 1 then -s.direction else s.direction))
  }

  /** The fade arguments of `bounce` make no difference. */
  lemma BounceIgnoresFadeArgs(s: Strip, color: Color, t1: int, n1: int, t2: int, n2: int)
    ensures BounceTick(s, color, t1, n1) == BounceTick(s, color, t2, n2)
  {
  }

  /** The cursor invariant of a strip of at least two LEDs: on the strip,
      moving one step at a time, and heading away from the end it is at. */
  predicate Bouncing(n: int, index: int, direction: int) {
    && 2 <= n
    && 0 <= index <= n - 1
    && ((direction == 1 && index < n - 1) || (direction == -1 && 0 < index))
  }

  /** A new strip of two or more LEDs starts bouncing correctly. */
  lemma NewStripBounces(count: nat)
    requires 2 <= count
    ensures var s := NewStrip(count); Bouncing(s.count, s.index, s.direction)
  {
  }

  /** On a valid bouncing strip a tick never raises, keeps the strip valid
      and keeps the cursor invariant; the direction flips exactly when the
      cursor lands on either end. */
  lemma BounceTickKeepsBouncing(s: Strip, color: Color, fadeTimeMs: int, fadeSteps: int)
    requires Valid(s) && Bouncing(s.count, s.index, s.direction)
    ensures BounceTick(s, color, fadeTimeMs, fadeSteps).Success?
    ensures var r := BounceTick(s, color, fadeTimeMs, fadeSteps).value;
      && Valid(r) && Bouncing(r.count, r.index, r.direction)
      && (r.direction == -s.direction <==> (r.index == 0 || r.index == s.count - 1))
  {
  }

  /** A single LED bounces once, then the cursor walks off the strip and
      the second tick raises `IndexError`. */
  lemma SingleLedBounceFails(color: Color)
    ensures var s := NewStrip(1);
      && BounceTick(s, color, 10, 10).Success?
      && BounceTick(s, color, 10, 10).value.index == 1
      && BounceTick(BounceTick(s, color, 10, 10).value, color, 10, 10) == Failure(IndexError)
  {
  }

  /** The cursor position of a bouncing strip of `n` LEDs after `k` ticks,
      as a triangle wave of period `2 * (n - 1)`. */
  function Triangle(n: int, k: nat): (i: int)
    requires 2 <= n
    ensures 0 <= i <= n - 1
  {
    var m := k % (2 * (n - 1));
    if m <= n - 1 then m else 2 * (n - 1) - m
  }

  /** The direction after `k` ticks. */
  function Heading(n: int, k: nat): int
    requires 2 <= n
  {
    if k % (2 * (n - 1)) < n - 1 then 1 else -1
  }

  /** The index rule of `bounce` applied `k` times from index 0 heading
      up; `TicksFollowCursor` shows that the strip after `k` ticks has this
      cursor. */
  function Cursor(n: int, k: nat): (int, int)
  {
    if k == 0 then (0, 1)
    else
      var (i, d) := Cursor(n, k - 1);
      var j := i + d;
      (j, if j == 0 || j == n - 1 then -d else d)
  }

  /** The remainder is determined by any division with remainder. */
  lemma ModUnique(a: int, p: int, q: int, m: int)
    requires 0 < p && 0 <= m < p && a == q * p + m
    ensures a % p == m
  {
    var q', m' := a / p, a % p;
    if q < q' {
      Distribute(q' - q, q, p);
      AtLeastOnce(q' - q, p);
    } else if q' < q {
      Distribute(q - q', q', p);
      AtLeastOnce(q - q', p);
    }
  }

  lemma Distribute(d: int, q: int, p: int)
    ensures (q + d) * p == q * p + d * p
  {
  }

  lemma AtLeastOnce(d: int, p: int)
    requires 1 <= d && 0 < p
    ensures p <= d * p
  {
  }

  /** Counting up by one modulo `p`. */
  lemma ModNext(k: nat, p: int)
    requires 0 < p
    ensures (k + 1) % p == if k % p == p - 1 then 0 else k % p + 1
  {
    var q, m := k / p, k % p;
    if m == p - 1 {
      ModUnique(k + 1, p, q + 1, 0);
    } else {
      ModUnique(k + 1, p, q, m + 1);
    }
  }

  /** From a new strip the cursor follows the triangle wave. */
  lemma {:induction false} CursorIsTriangle(n: int, k: nat)
    requires 2 <= n
    ensures Cursor(n, k) == (Triangle(n, k), Heading(n, k))
  {
    if k > 0 {
      CursorIsTriangle(n, k - 1);
      ModNext(k - 1, 2 * (n - 1));
    }
  }

  /** The strip after `k` calls of `bounce`; the first exception stops
      the loop. */
  function Ticks(s: Strip, color: Color, k: nat): Result<Strip, Error>
  {
    if k == 0 then Success(s)
    else match Ticks(s, color, k - 1)
      case Failure(e) => Failure(e)
      case Success(p) => BounceTick(p, color, BounceFadeTimeMs, BounceStartSteps)
  }

  /** A new strip as `start_bounce` with its defaults leaves it: the loop
      runs with `effect_running` set. */
  function Launched(n: nat, color: Color): (s: Strip)
    ensures Valid(s) && s.effectRunning && s.count == n && s.index == 0 && s.direction == 1
  {
    StartBounce(NewStrip(n), Some(color), BounceDelayMs, BounceFadeTimeMs, BounceStartSteps)
  }

  /** From a strip just set bouncing, of two or more LEDs, every tick
      succeeds, and the cursor moves exactly as `Cursor` says. */
  lemma {:induction false} TicksFollowCursor(n: nat, color: Color, k: nat)
    requires 2 <= n
    ensures Ticks(Launched(n, color), color, k).Success?
    ensures var s := Ticks(Launched(n, color), color, k).value;
      && Valid(s) && Bouncing(s.count, s.index, s.direction) && s.count == n
      && (s.index, s.direction) == Cursor(n, k)
  {
    if k > 0 {
      TicksFollowCursor(n, color, k - 1);
      var p := Ticks(Launched(n, color), color, k - 1).value;
      BounceTickKeepsBouncing(p, color, BounceFadeTimeMs, BounceStartSteps);
    }
  }

  /** From a strip of `n >= 2` LEDs just set bouncing, after `k` ticks the cursor sits at
      the triangle wave of period `2 * (n - 1)` and heads the way it says. */
  lemma BounceIsTriangle(n: nat, color: Color, k: nat)
    requires 2 <= n
    ensures Ticks(Launched(n, color), color, k).Success?
    ensures Ticks(Launched(n, color), color, k).value.index == Triangle(n, k)
    ensures Ticks(Launched(n, color), color, k).value.direction == Heading(n, k)
  {
    TicksFollowCursor(n, color, k);
    CursorIsTriangle(n, k);
  }

  // ---------------------------------------------------------------------
  // Every operation keeps the strip valid
  // ---------------------------------------------------------------------

  /** The public operations of the strip. */
  datatype Op =
    | FillOp(c: Color)
    | ClearOp
    | FillFadeOp(c: Color)
    | FadeToOp(targets: seq<Color>, steps: Option<int>, allowBreak: bool)
    | PauseOp
    | BacklightOp(target: Option<Color>)
    | ResumeOp(timeoutMs: int, now: int)
    | TimerOp(now: int)
    | StopEffectOp
    | StartBounceOp(bounceColor: Option<Color>, delayMs: int, fadeTimeMs: int, fadeSteps: int)
    | StartHeartbeatOp(beatColor: Option<Color>, onDelayMs: int, offDelayMs: int, beatTimeMs: int, beatSteps: int)
    | SyncOp(syncMethod: Option<string>, syncValue: int)
    | BounceOp(color: Color, bounceTimeMs: int, bounceSteps: int)

  function Apply(s: Strip, op: Op): Result<Strip, Error>
  {
    match op
    case FillOp(c) => Success(Fill(s, c))
    case ClearOp => Success(Clear(s))
    case FillFadeOp(c) => FillFade(s, c)
    case FadeToOp(t, n, b) => FadeTo(s, t, n, b)
    case PauseOp => Success(Pause(s))
    case BacklightOp(c) => Success(Backlight(s, c))
    case ResumeOp(t, now) => Resume(s, t, now)
    case TimerOp(now) => FireResumeTimer(s, now)
    case StopEffectOp => Success(StopEffect(s))
    case StartBounceOp(c, d, t, n) => Success(StartBounce(s, c, d, t, n))
    case StartHeartbeatOp(c, on, off, t, n) => Success(StartHeartbeat(s, c, on, off, t, n))
    case SyncOp(m, v) => Success(SyncEffectOn(s, m, v))
    case BounceOp(c, t, n) => BounceTick(s, c, t, n)
  }

  /** Every operation keeps a valid strip valid, and none of them ever
      clears `resume_effect` once `pause` has set it. Only an explicit
      `fade_to` or a bounce can raise. */
  lemma OpKeepsValid(s: Strip, op: Op)
    requires Valid(s)
    ensures !op.FadeToOp? && !op.BounceOp? ==> Apply(s, op).Success?
    ensures Apply(s, op).Success? ==> Valid(Apply(s, op).value)
    ensures Apply(s, op).Success? && s.resumeEffect ==> Apply(s, op).value.resumeEffect
  {
  }
}

=== FILE: proximity_sensor.dfy ===
/** The proximity sensor front end (oled-software/proximity_sensor.py): it
    configures the VCNL3040 once, calibrates the interrupt thresholds around
    the current reading, and on every interrupt turns a fresh reading into
    one of the two events "closing" and "away". */
module ProximitySensor {
  import opened Wrappers
  import Callbacks
  import V = Vcnl3040

  /** The sensor object: its driver, the last proximity verdict and the
      callbacks registered on it. */
  datatype Sensor = Sensor(vcnl: V.Device, proximity: bool, callbacks: Callbacks.Table)

  /** `calibrate`'s default gap between the low and the high threshold. */
  const DefaultDelta: bv16 := 4

  /** Readings below this count as "nothing near". */
  const NearReading: bv16 := 3

  /** The two events an interrupt can dispatch. */
  const Closing := "closing"
  const Away := "away"

  // ---------------------------------------------------------------------
  // Construction
  // ---------------------------------------------------------------------

  /** The configuration sequence of the constructor, in source order; the
      first setter that raises ends it with that error. */
  function Configure(d: V.Device): (r: V.Outcome)
    ensures r.error.None?
    ensures !r.dev.forced
    ensures forall c :: c != V.Config1 && c != V.Config3 ==> r.dev.regs[c] == d.regs[c]
  {
    var o1 := V.SetLedCurrent(d, 180);
    if o1.error.Some? then o1 else
    var o2 := V.SetDutyCycle(o1.dev, 80);
    if o2.error.Some? then o2 else
    var o3 := V.SetIntegrationTime(o2.dev, 8.0);
    if o3.error.Some? then o3 else
    var o4 := V.SetResolution(o3.dev, 16);
    if o4.error.Some? then o4 else
    var d5 := V.EnableInterruptProximityMode(V.SetForcedMode(o4.dev, false));
    var o6 := V.SetInterruptMode(d5, "closing_and_away");
    if o6.error.Some? then o6 else
    var o7 := V.SetPersistence(o6.dev, 4);
    if o7.error.Some? then o7 else
    V.Outcome(V.Start(o7.dev), None)
  }

  /** What the configuration sequence leaves in CONFIG1, written out. */
  function Config1After(x: bv16): bv16 {
    var v1 := V.Updated(x, V.Duty, 1);
    var v2 := V.Updated(v1, V.IntegrationTime, 7);
    var v3 := V.Updated(v2, V.Resolution, 1);
    var v4 := V.Updated(v3, V.InterruptMode, 3);
    var v5 := V.Updated(v4, V.Persistence, 3);
    V.Updated(v5, V.PsEnable, 0)
  }

  /** What the configuration sequence leaves in CONFIG3, written out. */
  function Config3After(y: bv16): bv16 {
    var v1 := V.Updated(y, V.LedCurrent, 5);
    var v2 := V.Updated(v1, V.ForcedMode, 0);
    V.Updated(v2, V.ProximityMode, 1)
  }

  /** Every setter of the configuration sequence accepts its argument, so
      the sequence amounts to these field writes. */
  lemma ConfigureSucceeds(d: V.Device)
    ensures Configure(d) == V.Outcome(ConfigureWrites(d), None)
  {
    var o1 := V.SetLedCurrent(d, 180);
    LedStep(d);
    var o2 := V.SetDutyCycle(o1.dev, 80);
    DutyStep(o1.dev);
    var o3 := V.SetIntegrationTime(o2.dev, 8.0);
    IntegrationTimeStep(o2.dev);
    var o4 := V.SetResolution(o3.dev, 16);
    ResolutionStep(o3.dev);
    var d5 := V.EnableInterruptProximityMode(V.SetForcedMode(o4.dev, false));
    var o6 := V.SetInterruptMode(d5, "closing_and_away");
    InterruptStep(d5);
    var o7 := V.SetPersistence(o6.dev, 4);
    PersistenceStep(o6.dev);
  }

  /** The field writes of the configuration sequence, in order. */
  function ConfigureWrites(d: V.Device): V.Device {
    CodesFit();
    var d1 := V.SetField(d, V.LedCurrent, 5);
    var d2 := V.SetField(d1, V.Duty, 1);
    var d3 := V.SetField(d2, V.IntegrationTime, 7);
    var d4 := V.SetField(d3, V.Resolution, 1);
    var d5 := V.EnableInterruptProximityMode(V.SetForcedMode(d4, false));
    var d6 := V.SetField(d5, V.InterruptMode, 3);
    var d7 := V.SetField(d6, V.Persistence, 3);
    V.Start(d7)
  }

  /** The codes the configuration sequence writes fit their fields. */
  lemma CodesFit()
    ensures V.Fits(V.LedCurrent, 5) && V.Fits(V.Duty, 1) && V.Fits(V.IntegrationTime, 7)
    ensures V.Fits(V.Resolution, 1) && V.Fits(V.InterruptMode, 3) && V.Fits(V.Persistence, 3)
  {
  }

  // Each setter of the sequence accepts its argument and writes its code.

  lemma LedStep(d: V.Device)
    ensures V.SetLedCurrent(d, 180) == V.Outcome(V.SetField(d, V.LedCurrent, 5), None)
  {
  }

  lemma DutyStep(d: V.Device)
    ensures V.SetDutyCycle(d, 80) == V.Outcome(V.SetField(d, V.Duty, 1), None)
  {
  }

  lemma IntegrationTimeStep(d: V.Device)
    ensures V.SetIntegrationTime(d, 8.0) == V.Outcome(V.SetField(d, V.IntegrationTime, 7), None)
  {
  }

  lemma ResolutionStep(d: V.Device)
    ensures V.SetResolution(d, 16) == V.Outcome(V.SetField(d, V.Resolution, 1), None)
  {
  }

  lemma InterruptStep(d: V.Device)
    ensures V.SetInterruptMode(d, "closing_and_away") == V.Outcome(V.SetField(d, V.InterruptMode, 3), None)
  {
  }

  lemma PersistenceStep(d: V.Device)
    ensures V.SetPersistence(d, 4) == V.Outcome(V.SetField(d, V.Persistence, 3), None)
  {
  }

  /** The configuration sequence rewrites CONFIG1 and CONFIG3 field by field. */
  lemma ConfigureRegisters(d: V.Device)
    ensures Configure(d).dev.regs[V.Config1] == Config1After(d.regs[V.Config1])
    ensures Configure(d).dev.regs[V.Config3] == Config3After(d.regs[V.Config3])
  {
    ConfigureSucceeds(d);
    WritesRegisters(d);
  }

  /** The field writes of the sequence, followed register by register. */
  lemma WritesRegisters(d: V.Device)
    ensures ConfigureWrites(d).regs[V.Config1] == Config1After(d.regs[V.Config1])
    ensures ConfigureWrites(d).regs[V.Config3] == Config3After(d.regs[V.Config3])
  {
    CodesFit();
    var x, y := d.regs[V.Config1], d.regs[V.Config3];
    var d1 := V.SetField(d, V.LedCurrent, 5);
    assert d1.regs[V.Config1] == x && d1.regs[V.Config3] == V.Updated(y, V.LedCurrent, 5);
    var d2 := V.SetField(d1, V.Duty, 1);
    assert d2.regs[V.Config3] == d1.regs[V.Config3] && d2.regs[V.Config1] == V.Updated(x, V.Duty, 1);
    var d3 := V.SetField(d2, V.IntegrationTime, 7);
    assert d3.regs[V.Config3] == d1.regs[V.Config3];
    var d4 := V.SetField(d3, V.Resolution, 1);
    assert d4.regs[V.Config3] == d1.regs[V.Config3];
    var d5 := V.EnableInterruptProximityMode(V.SetForcedMode(d4, false));
    assert d5.regs[V.Config1] == d4.regs[V.Config1] && d5.regs[V.Config3] == Config3After(y);
    var d6 := V.SetField(d5, V.InterruptMode, 3);
    assert d6.regs[V.Config3] == d5.regs[V.Config3];
    var d7 := V.SetField(d6, V.Persistence, 3);
    assert d7.regs[V.Config3] == d5.regs[V.Config3];
  }

  /** Every CONFIG1 field ends up holding its configured code, and the bits
      no field covers (10 and 12-15) are as they were. */
  lemma Config1Settings(x: bv16)
    ensures var v := Config1After(x);
      && V.FieldValue(v, V.Duty) == 1 && V.FieldValue(v, V.IntegrationTime) == 7
      && V.FieldValue(v, V.Resolution) == 1 && V.FieldValue(v, V.InterruptMode) == 3
      && V.FieldValue(v, V.Persistence) == 3 && V.FieldValue(v, V.PsEnable) == 0
      && v & 0xF400 == x & 0xF400
  {
  }

  /** The three CONFIG3 fields the sequence writes hold their codes, and
      every other bit of CONFIG3 is as it was. */
  lemma Config3Settings(y: bv16)
    ensures var v := Config3After(y);
      && V.FieldValue(v, V.LedCurrent) == 5 && V.FieldValue(v, V.ForcedMode) == 0
      && V.FieldValue(v, V.ProximityMode) == 1
      && v & 0xB8F7 == y & 0xB8F7
  {
  }

  /** `ProximitySensor(gpio)`: configure, calibrate around the current
      reading, no callback yet, nothing near. */
  function Init(regs: V.Registers): (r: Sensor)
    ensures !r.proximity && r.callbacks == Callbacks.Empty
  {
    Sensor(Calibrate(Configure(V.Open(regs)).dev, None, DefaultDelta), false, Callbacks.Empty)
  }

  /** After construction every field holds the code its constructor
      argument encodes (LED 180 mA, duty 1/80, integration time 8T, 16-bit
      output, interrupts on closing and away, persistence 4), the sensor is
      running in auto mode with the interrupt in proximity mode. */
  lemma InitSettings(regs: V.Registers)
    ensures var v := Init(regs).vcnl;
      && V.FieldValue(v.regs[V.Config3], V.LedCurrent) == V.LedCurrentCode(180).value
      && V.FieldValue(v.regs[V.Config1], V.Duty) == V.DutyCode(80).value
      && V.FieldValue(v.regs[V.Config1], V.IntegrationTime) == V.IntegrationTimeCode(8.0).value
      && V.FieldValue(v.regs[V.Config1], V.Resolution) == V.ResolutionCode(16).value
      && V.FieldValue(v.regs[V.Config1], V.InterruptMode) == V.InterruptCode("closing_and_away").value
      && V.FieldValue(v.regs[V.Config1], V.Persistence) == V.PersistenceCode(4).value
      && V.FieldValue(v.regs[V.Config1], V.PsEnable) == 0
      && V.FieldValue(v.regs[V.Config3], V.ForcedMode) == 0 && !v.forced
      && V.FieldValue(v.regs[V.Config3], V.ProximityMode) == 1
  {
    InitRegisters(regs);
    Config1Settings(regs[V.Config1]);
    Config3Settings(regs[V.Config3]);
    CodeValues();
  }

  /** Construction leaves CONFIG1 and CONFIG3 as the configuration sequence
      writes them: the calibration's reading needs no forced trigger. */
  lemma InitRegisters(regs: V.Registers)
    ensures var v := Init(regs).vcnl;
      && v.regs[V.Config1] == Config1After(regs[V.Config1])
      && v.regs[V.Config3] == Config3After(regs[V.Config3])
      && !v.forced
  {
    ConfiguredCalibrated(V.Open(regs));
  }

  /** Configuring and then calibrating without a threshold leaves the two
      configuration registers as configured. */
  lemma ConfiguredCalibrated(d: V.Device)
    ensures var v := Calibrate(Configure(d).dev, None, DefaultDelta);
      && v.regs[V.Config1] == Config1After(d.regs[V.Config1])
      && v.regs[V.Config3] == Config3After(d.regs[V.Config3])
      && !v.forced
  {
    ConfigureRegisters(d);
    CalibrationKeepsConfig(Configure(d).dev);
  }

  /** Out of forced mode, calibration leaves both configuration registers
      and the forced flag alone. */
  lemma CalibrationKeepsConfig(e: V.Device)
    requires !e.forced
    ensures var v := Calibrate(e, None, DefaultDelta);
      v.regs[V.Config1] == e.regs[V.Config1] && v.regs[V.Config3] == e.regs[V.Config3] && !v.forced
  {
    CalibrateKeepsConfig(e, None, DefaultDelta);
  }

  /** The codes of the constructor's arguments. */
  lemma CodeValues()
    ensures V.LedCurrentCode(180) == Some(5) && V.DutyCode(80) == Some(1)
    ensures V.IntegrationTimeCode(8.0) == Some(7) && V.ResolutionCode(16) == Some(1)
    ensures V.InterruptCode("closing_and_away") == Some(3) && V.PersistenceCode(4) == Some(3)
  {
  }

  /** After construction the thresholds sit at the reading and at the
      reading plus 4. */
  lemma InitThresholds(regs: V.Registers)
    ensures var v := Init(regs).vcnl;
      && v.regs[V.ThresholdLow] == regs[V.OutputData]
      && v.regs[V.ThresholdHigh] == Add16(regs[V.OutputData], DefaultDelta)
  {
  }

  /** Construction leaves the interrupt flag, ID, output and cancellation
      registers as they were. */
  lemma InitUntouched(regs: V.Registers)
    ensures forall c :: Untouched(c) ==> Init(regs).vcnl.regs[c] == regs[c]
  {
  }

  /** The registers neither the configuration nor the calibration writes. */
  predicate Untouched(c: V.Command) {
    c == V.Cancellation || c == V.OutputData || c == V.IntFlag || c == V.DeviceId
  }

  // ---------------------------------------------------------------------
  // Calibration
  // ---------------------------------------------------------------------

  /** `calibrate(low_threshold, delta)`: without a threshold, take the
      current reading as the low threshold; the high threshold is the low
      one plus `delta`, in 16-bit register arithmetic. */
  function Calibrate(d: V.Device, low: Option<bv16>, delta: bv16): (r: V.Device)
    ensures r.regs[V.ThresholdLow] == low.GetOr(d.regs[V.OutputData])
    ensures r.regs[V.ThresholdHigh] == Add16(r.regs[V.ThresholdLow], delta)
    ensures forall c :: c != V.Config3 && c != V.ThresholdLow && c != V.ThresholdHigh ==> r.regs[c] == d.regs[c]
    ensures r.forced == d.forced
  {
    match low
    case Some(t) => SetThresholds(d, t, delta)
    case None =>
      var (d1, reading) := V.GetData(d);
      SetThresholds(d1, reading, delta)
  }

  /** 16-bit addition, wrapping around. */
  function Add16(a: bv16, b: bv16): bv16 {
    a + b
  }

  /** The two threshold writes, low first. */
  function SetThresholds(d: V.Device, low: bv16, delta: bv16): (r: V.Device)
    ensures r.regs[V.ThresholdLow] == low && r.regs[V.ThresholdHigh] == Add16(low, delta)
    ensures forall c :: c != V.ThresholdLow && c != V.ThresholdHigh ==> r.regs[c] == d.regs[c]
    ensures r.bus == d.bus + [V.Write(V.ThresholdLow, low), V.Write(V.ThresholdHigh, Add16(low, delta))]
    ensures r.forced == d.forced
  {
    V.LogAppend2(d.bus, V.Write(V.ThresholdLow, low), V.Write(V.ThresholdHigh, Add16(low, delta)));
    V.SetHighThreshold(V.SetLowThreshold(d, low), Add16(low, delta))
  }

  /** Calibration touches CONFIG3 only to trigger a forced-mode reading. */
  lemma CalibrateKeepsConfig(d: V.Device, low: Option<bv16>, delta: bv16)
    requires !d.forced || low.Some?
    ensures Calibrate(d, low, delta).regs[V.Config3] == d.regs[V.Config3]
  {
    if low.None? {
      assert V.GetData(d).0.regs == d.regs;
    }
  }

  /** Calibrating without a threshold is calibrating with the current
      reading as the threshold, when no forced trigger intervenes; only the
      read of the output register is added on the bus. */
  lemma CalibrateFromReading(d: V.Device, delta: bv16)
    requires !d.forced
    ensures var r, s := Calibrate(d, None, delta), Calibrate(d, Some(d.regs[V.OutputData]), delta);
      r.regs == s.regs && r.forced == s.forced
  {
    var (d1, reading) := V.GetData(d);
    assert d1.regs == d.regs && reading == d.regs[V.OutputData];
    ThresholdsFollowRegisters(d1, d, reading, delta);
  }

  /** The threshold writes depend on the registers alone, not on the log. */
  lemma ThresholdsFollowRegisters(d: V.Device, e: V.Device, low: bv16, delta: bv16)
    requires d.regs == e.regs
    ensures SetThresholds(d, low, delta).regs == SetThresholds(e, low, delta).regs
  {
  }

  /** The high threshold wraps around: a reading of 0xFFFE with the default
      delta puts the high threshold at 2, below the low one. */
  lemma HighThresholdWraps(d: V.Device)
    requires d.regs[V.OutputData] == 0xFFFE
    ensures var r := Calibrate(d, None, DefaultDelta);
      r.regs[V.ThresholdLow] == 0xFFFE && r.regs[V.ThresholdHigh] == 2
  {
  }

  // ---------------------------------------------------------------------
  // Callbacks
  // ---------------------------------------------------------------------

  /** `register_callback(action, function, *args, **kwargs)`. */
  function RegisterCallback(s: Sensor, action: string, handler: string, args: seq<Callbacks.Value>,
                            kwargs: map<string, Callbacks.Value>): (r: Sensor)
    ensures r.vcnl == s.vcnl && r.proximity == s.proximity
    ensures Callbacks.Execute(r.callbacks, action) == Some(Callbacks.Call(handler, args, kwargs, Callbacks.Both))
    ensures forall l :: l != action ==> Callbacks.Execute(r.callbacks, l) == Callbacks.Execute(s.callbacks, l)
  {
    Callbacks.RegisterThenExecute(s.callbacks, action, handler, args, kwargs);
    forall l | l != action
      ensures Callbacks.Execute(Callbacks.Register(s.callbacks, action, handler, args, kwargs), l)
           == Callbacks.Execute(s.callbacks, l)
    {
      Callbacks.RegisterIsolated(s.callbacks, action, l, handler, args, kwargs);
    }
    s.(callbacks := Callbacks.Register(s.callbacks, action, handler, args, kwargs))
  }

  /** What one interrupt does: the event chosen and the handler call, if
      any handler is registered for it. */
  datatype Dispatch = Dispatch(event: string, call: Option<Callbacks.Call>)

  /** `evaluate_callback()`: "closing" when something is near, "away"
      otherwise. */
  function EvaluateCallback(s: Sensor): (r: Dispatch)
    ensures r.event == Closing || r.event == Away
    ensures r.event == Closing <==> s.proximity
    ensures r.call.None? <==> r.event !in s.callbacks
    ensures r.call.Some? ==> r.call.value.handler == s.callbacks[r.event].handler
  {
    var event := if s.proximity then Closing else Away;
    Dispatch(event, Callbacks.Execute(s.callbacks, event))
  }

  /** `callback()`: take a reading, decide proximity, dispatch. */
  function Callback(s: Sensor): (r: (Sensor, Dispatch))
    ensures r.0.proximity <==> s.vcnl.regs[V.OutputData] >= NearReading
    ensures r.0.callbacks == s.callbacks
    ensures r.1 == EvaluateCallback(r.0)
    ensures r.0.vcnl == V.GetData(s.vcnl).0
  {
    var (d, reading) := V.GetData(s.vcnl);
    var s' := s.(vcnl := d, proximity := !(reading < NearReading));
    (s', EvaluateCallback(s'))
  }

  /** A handler registered through `register_callback` is always called
      with both its positional and its keyword arguments, whichever event
      fires. */
  lemma RegisteredCallGetsBoth(s: Sensor, action: string, handler: string,
                               args: seq<Callbacks.Value>, kwargs: map<string, Callbacks.Value>)
    requires action == Closing || action == Away
    ensures var r := Callback(RegisterCallback(s, action, handler, args, kwargs));
      r.1.event == action ==> r.1.call == Some(Callbacks.Call(handler, args, kwargs, Callbacks.Both))
  {
  }

  /** An interrupt with a reading of 3 or more fires "closing", one below 3
      fires "away"; a reading of exactly 3 is near. */
  lemma EventFollowsReading(s: Sensor)
    ensures Callback(s).1.event == (if s.vcnl.regs[V.OutputData] < 3 then Away else Closing)
  {
  }
}

=== FILE: vcnl3040.dfy ===
/** The register-level driver of the VCNL3040 proximity sensor
    (oled-software/vcnl3040.py). The device is a file of 16-bit registers
    indexed by command code, plus the driver's own `forced` flag and a log
    of every bus access, so that "nothing was read or written" can be
    stated. Every setter is a read-modify-write that clears one bit field
    with its mask and ors in the field's code shifted to its position. */
module Vcnl3040 {
  import opened Wrappers

  /** The command codes (register addresses) the driver uses. */
  datatype Command = Config1 | Config3 | Cancellation | ThresholdLow | ThresholdHigh | OutputData | IntFlag | DeviceId

  function Code(c: Command): bv8 {
    match c
    case Config1 => 0x03
    case Config3 => 0x04
    case Cancellation => 0x05
    case ThresholdLow => 0x06
    case ThresholdHigh => 0x07
    case OutputData => 0x08
    case IntFlag => 0x0B
    case DeviceId => 0x0C
  }

  /** Distinct commands address distinct registers. */
  lemma CodesDistinct(a: Command, b: Command)
    requires a != b
    ensures Code(a) != Code(b)
  {
  }

  /** The I2C address the driver opens by default. */
  const DeviceAddress: bv8 := 0x60
  /** What `is_connected` expects in the device-ID register. */
  const ExpectedId: bv16 := 0x186

  /** A full register file: every command addresses a register. */
  type Registers = m: imap<Command, bv16> | forall c: Command :: c in m
    witness imap c: Command :: 0

  /** One bus transaction. */
  datatype Access = Read(cmd: Command) | Write(cmd: Command, value: bv16)

  datatype Device = Device(regs: Registers, forced: bool, bus: seq<Access>)

  /** A new driver: whatever the chip holds, not in forced mode, no
      transaction yet. */
  function Open(regs: Registers): (d: Device)
    ensures d.regs == regs && !d.forced && d.bus == []
  {
    Device(regs, false, [])
  }

  // ---------------------------------------------------------------------
  // Bit fields
  // ---------------------------------------------------------------------

  /** A bit field of a register: the mask its setter ands the register
      with, the position it shifts its code to, and its width in bits. */
  datatype Field = Field(reg: Command, mask: bv16, pos: bv4, width: bv4)

  const PsEnable := Field(Config1, 0xFFFE, 0, 1)
  const IntegrationTime := Field(Config1, 0xFFF1, 1, 3)
  const Persistence := Field(Config1, 0xFFCF, 4, 2)
  const Duty := Field(Config1, 0xFF3F, 6, 2)
  const InterruptMode := Field(Config1, 0xFCFF, 8, 2)
  const Resolution := Field(Config1, 0xF7FF, 11, 1)
  const Sunlight := Field(Config3, 0xFFFE, 0, 1)
  const ForcedTrigger := Field(Config3, 0xFFFB, 2, 1)
  const ForcedMode := Field(Config3, 0xFFF7, 3, 1)
  const LedCurrent := Field(Config3, 0xF8FF, 8, 3)
  const ProximityMode := Field(Config3, 0xBFFF, 14, 1)

  /** The fields the driver writes, by register, width, position and mask. */
  predicate Known(f: Field) {
    || (f.reg == Config1 && Config1Shape(f.width, f.pos, f.mask))
    || (f.reg == Config3 && Config3Shape(f.width, f.pos, f.mask))
  }

  /** Width, position and mask of the CONFIG1 fields: shutdown, integration
      time, persistence, duty, interrupt mode and resolution. */
  predicate Config1Shape(w: bv4, p: bv4, m: bv16) {
    || (w, p, m) == (1, 0, 0xFFFE) || (w, p, m) == (3, 1, 0xFFF1) || (w, p, m) == (2, 4, 0xFFCF)
    || (w, p, m) == (2, 6, 0xFF3F) || (w, p, m) == (2, 8, 0xFCFF) || (w, p, m) == (1, 11, 0xF7FF)
  }

  /** Width, position and mask of the CONFIG3 fields: sunlight
      cancellation, trigger, forced mode, LED current and proximity
      interrupt mode. */
  predicate Config3Shape(w: bv4, p: bv4, m: bv16) {
    || (w, p, m) == (1, 0, 0xFFFE) || (w, p, m) == (1, 2, 0xFFFB) || (w, p, m) == (1, 3, 0xFFF7)
    || (w, p, m) == (3, 8, 0xF8FF) || (w, p, m) == (1, 14, 0xBFFF)
  }

  /** `v << pos`, spelled out one position at a time so that every shift
      the solver sees is by a constant. */
  function Shl(v: bv16, pos: bv4): bv16 {
    match pos
    case 0 => v
    case 1 => v << 1
    case 2 => v << 2
    case 3 => v << 3
    case 4 => v << 4
    case 5 => v << 5
    case 6 => v << 6
    case 7 => v << 7
    case 8 => v << 8
    case 9 => v << 9
    case 10 => v << 10
    case 11 => v << 11
    case 12 => v << 12
    case 13 => v << 13
    case 14 => v << 14
    case 15 => v << 15
  }

  /** `v >> pos`, spelled out like `Shl`. */
  function Shr(v: bv16, pos: bv4): bv16 {
    match pos
    case 0 => v
    case 1 => v >> 1
    case 2 => v >> 2
    case 3 => v >> 3
    case 4 => v >> 4
    case 5 => v >> 5
    case 6 => v >> 6
    case 7 => v >> 7
    case 8 => v >> 8
    case 9 => v >> 9
    case 10 => v >> 10
    case 11 => v >> 11
    case 12 => v >> 12
    case 13 => v >> 13
    case 14 => v >> 14
    case 15 => v >> 15
  }

  /** The bits a field's mask clears. */
  function Bits(f: Field): bv16 {
    !f.mask
  }

  /** A code fits a field when, shifted to the field's position, it lands
      inside the bits the mask clears and loses no bit on the way. */
  predicate Fits(f: Field, code: bv16) {
    Shl(code, f.pos) & f.mask == 0 && Shr(Shl(code, f.pos), f.pos) == code
  }

  /** Every mask clears exactly `width` bits starting at `pos`. */
  lemma MaskLayout(f: Field)
    requires Known(f)
    ensures Bits(f) == Shl(Shl(1, f.width) - 1, f.pos)
  {
    if f.reg == Config1 {
      Config1Layout(f.width, f.pos, f.mask);
    } else {
      Config3Layout(f.width, f.pos, f.mask);
    }
  }

  lemma Config1Layout(w: bv4, p: bv4, m: bv16)
    requires Config1Shape(w, p, m)
    ensures !m == Shl(Shl(1, w) - 1, p)
  {
  }

  lemma Config3Layout(w: bv4, p: bv4, m: bv16)
    requires Config3Shape(w, p, m)
    ensures !m == Shl(Shl(1, w) - 1, p)
  {
  }

  /** Two fields are apart when they lie in different registers or share
      no bit of their register. */
  predicate Apart(f: Field, g: Field) {
    f.reg != g.reg || Bits(f) & Bits(g) == 0
  }

  lemma ApartSymmetric(f: Field, g: Field)
    requires Apart(f, g)
    ensures Apart(g, f)
  {
  }

  /** Any two different fields the driver writes are apart. */
  lemma FieldsDisjoint(f: Field, g: Field)
    requires Known(f) && Known(g) && f != g
    ensures Apart(f, g)
  {
  }

  /** The value of a field within a register value. */
  function FieldValue(v: bv16, f: Field): bv16 {
    Extract(v, f.mask, f.pos)
  }

  function Extract(v: bv16, mask: bv16, pos: bv4): bv16 {
    Shr(v & !mask, pos)
  }

  /** `(value & MASK) | (code << POS)`. */
  function Updated(prior: bv16, f: Field, code: bv16): bv16 {
    Merge(prior, f.mask, f.pos, code)
  }

  function Merge(prior: bv16, mask: bv16, pos: bv4, code: bv16): bv16 {
    (prior & mask) | Shl(code, pos)
  }

  /** The read-modify-write of one field, written back. */
  function SetField(d: Device, f: Field, code: bv16): (r: Device)
    requires Fits(f, code)
    ensures FieldWritten(d, r, f, code)
    ensures r.forced == d.forced
    ensures r.bus == d.bus + [Read(f.reg), Write(f.reg, r.regs[f.reg])]
    ensures r.regs == Store(d.regs, f, code)
  {
    var v := Updated(d.regs[f.reg], f, code);
    FieldUpdate(d.regs[f.reg], f, code);
    d.(regs := Store(d.regs, f, code), bus := d.bus + [Read(f.reg), Write(f.reg, v)])
  }

  /** The register file with one field's update written back. */
  function Store(regs: Registers, f: Field, code: bv16): Registers {
    regs[f.reg := Updated(regs[f.reg], f, code)]
  }

  /** After a field write: the field reads back as the code, and every
      other bit is as before. */
  ghost predicate FieldWritten(d: Device, r: Device, f: Field, code: bv16) {
    FieldValue(r.regs[f.reg], f) == code && OthersKept(d, r, f)
  }

  /** Every bit outside the field, in every register, is as before. */
  ghost predicate OthersKept(d: Device, r: Device, f: Field) {
    && r.regs[f.reg] & f.mask == d.regs[f.reg] & f.mask
    && (forall c :: c != f.reg ==> r.regs[c] == d.regs[c])
  }

  /** A fitting code shifted into place reads back and leaves the other
      bits alone. */
  lemma FieldUpdate(prior: bv16, f: Field, code: bv16)
    requires Fits(f, code)
    ensures FieldValue(Updated(prior, f, code), f) == code
    ensures Updated(prior, f, code) & f.mask == prior & f.mask
  {
    MergeReadsBack(prior, f.mask, f.pos, code);
  }

  lemma MergeReadsBack(prior: bv16, m: bv16, p: bv4, code: bv16)
    requires Shl(code, p) & m == 0 && Shr(Shl(code, p), p) == code
    ensures Extract(Merge(prior, m, p, code), m, p) == code
    ensures Merge(prior, m, p, code) & m == prior & m
  {
    MergeMasks(prior, m, p, code);
  }

  /** Merging a code that lands inside the cleared bits: the kept bits are
      the old ones and the cleared bits hold the shifted code. */
  lemma MergeMasks(prior: bv16, m: bv16, p: bv4, code: bv16)
    requires Shl(code, p) & m == 0
    ensures Merge(prior, m, p, code) & m == prior & m
    ensures Merge(prior, m, p, code) & !m == Shl(code, p)
  {
  }

  /** The setters of two fields that are apart commute on the register file. */
  lemma SettersCommute(d: Device, f: Field, a: bv16, g: Field, b: bv16)
    requires Apart(f, g) && Fits(f, a) && Fits(g, b)
    ensures SetField(SetField(d, f, a), g, b).regs == SetField(SetField(d, g, b), f, a).regs
  {
    if f.reg == g.reg {
      SameRegister(d.regs[f.reg], f, a, g, b);
    }
    StoresCommute(d.regs, f, a, g, b);
    Extensional(Store(Store(d.regs, f, a), g, b), Store(Store(d.regs, g, b), f, a));
  }

  /** Two different fields of one register can be updated in either order. */
  lemma SameRegister(x: bv16, f: Field, a: bv16, g: Field, b: bv16)
    requires Apart(f, g) && f.reg == g.reg && Fits(f, a) && Fits(g, b)
    ensures Updated(Updated(x, f, a), g, b) == Updated(Updated(x, g, b), f, a)
  {
    MergesCommute(x, f.mask, f.pos, a, g.mask, g.pos, b);
  }

  /** Register files that agree on every register are equal. */
  lemma Extensional(r1: Registers, r2: Registers)
    requires forall c :: r1[c] == r2[c]
    ensures r1 == r2
  {
  }

  /** Stores to different registers commute, and so do stores to one
      register whose updates commute. */
  lemma StoresCommute(regs: Registers, f: Field, a: bv16, g: Field, b: bv16)
    requires f.reg == g.reg ==> Updated(Updated(regs[f.reg], f, a), g, b) == Updated(Updated(regs[f.reg], g, b), f, a)
    ensures forall c :: Store(Store(regs, f, a), g, b)[c] == Store(Store(regs, g, b), f, a)[c]
  {
  }

  /** Writes of codes that land in disjoint cleared bits commute. */
  lemma MergesCommute(x: bv16, m1: bv16, p1: bv4, a: bv16, m2: bv16, p2: bv4, b: bv16)
    requires (!m1 & !m2) == 0
    requires Shl(a, p1) & m1 == 0 && Shl(b, p2) & m2 == 0
    ensures Merge(Merge(x, m1, p1, a), m2, p2, b) == Merge(Merge(x, m2, p2, b), m1, p1, a)
  {
    MergeTwice(x, m1, p1, a, m2, p2, b);
    MergeTwice(x, m2, p2, b, m1, p1, a);
    DisjointWritesCommute(x, m1, Shl(a, p1), m2, Shl(b, p2));
  }

  lemma MergeTwice(x: bv16, m1: bv16, p1: bv4, a: bv16, m2: bv16, p2: bv4, b: bv16)
    ensures Merge(Merge(x, m1, p1, a), m2, p2, b) == (((x & m1) | Shl(a, p1)) & m2) | Shl(b, p2)
  {
  }

  lemma DisjointWritesCommute(x: bv16, m1: bv16, a: bv16, m2: bv16, b: bv16)
    requires (!m1 & !m2) == 0 && a & m1 == 0 && b & m2 == 0
    ensures (((x & m1) | a) & m2) | b == (((x & m2) | b) & m1) | a
  {
  }

  /** Writing one field leaves the value of every field apart from it as
      it was. */
  lemma StoreKeepsOther(regs: Registers, f: Field, a: bv16, g: Field)
    requires Apart(f, g) && Fits(f, a)
    ensures FieldValue(Store(regs, f, a)[g.reg], g) == FieldValue(regs[g.reg], g)
  {
    if f.reg == g.reg {
      UpdateKeepsNeighbour(regs[f.reg], f, a, g);
    }
  }

  lemma UpdateKeepsNeighbour(x: bv16, f: Field, a: bv16, g: Field)
    requires Bits(f) & Bits(g) == 0 && Fits(f, a)
    ensures FieldValue(Updated(x, f, a), g) == FieldValue(x, g)
  {
    FieldUpdate(x, f, a);
    NeighbourKept(x, Updated(x, f, a), f, g);
  }

  /** Bits kept by one field's mask keep the value of a field apart from it. */
  lemma NeighbourKept(x: bv16, y: bv16, f: Field, g: Field)
    requires Bits(f) & Bits(g) == 0 && y & f.mask == x & f.mask
    ensures FieldValue(y, g) == FieldValue(x, g)
  {
    OutsideMaskKept(x, y, f.mask, g.mask);
    SameBitsSameValue(x, y, g);
  }

  /** A field's value depends only on the field's own bits. */
  lemma SameBitsSameValue(x: bv16, y: bv16, g: Field)
    requires y & !g.mask == x & !g.mask
    ensures FieldValue(y, g) == FieldValue(x, g)
  {
  }

  lemma OutsideMaskKept(x: bv16, y: bv16, m1: bv16, m2: bv16)
    requires y & m1 == x & m1 && (!m1 & !m2) == 0
    ensures y & !m2 == x & !m2
  {
  }

  /** Every code of a series of writes fits its field. */
  predicate WritesFit(ws: seq<(Field, bv16)>) {
    ws == [] || (Fits(ws[0].0, ws[0].1) && WritesFit(ws[1..]))
  }

  /** No field of a series of writes shares a bit with `g`. */
  predicate ApartFromAll(g: Field, ws: seq<(Field, bv16)>) {
    ws == [] || (Apart(g, ws[0].0) && ApartFromAll(g, ws[1..]))
  }

  /** The fields of a series of writes are pairwise apart. */
  predicate Separate(ws: seq<(Field, bv16)>) {
    ws == [] || (ApartFromAll(ws[0].0, ws[1..]) && Separate(ws[1..]))
  }

  /** A series of field writes, applied in order. */
  function SetFields(d: Device, ws: seq<(Field, bv16)>): (r: Device)
    requires WritesFit(ws)
    ensures r.forced == d.forced
    decreases |ws|
  {
    if ws == [] then d else SetFields(SetField(d, ws[0].0, ws[0].1), ws[1..])
  }

  /** Fields a series does not write keep their values. */
  lemma {:induction false} SetFieldsKeep(d: Device, ws: seq<(Field, bv16)>, g: Field)
    requires WritesFit(ws) && ApartFromAll(g, ws)
    ensures FieldValue(SetFields(d, ws).regs[g.reg], g) == FieldValue(d.regs[g.reg], g)
    decreases |ws|
  {
    if ws != [] {
      ApartSymmetric(g, ws[0].0);
      StoreKeepsOther(d.regs, ws[0].0, ws[0].1, g);
      SetFieldsKeep(SetField(d, ws[0].0, ws[0].1), ws[1..], g);
    }
  }

  /** After a series of writes to fields that are pairwise apart, every
      field reads back as the code written to it. */
  lemma {:induction false} SetFieldsReadBack(d: Device, ws: seq<(Field, bv16)>, i: int)
    requires WritesFit(ws) && Separate(ws)
    requires 0 <= i < |ws|
    ensures FieldValue(SetFields(d, ws).regs[ws[i].0.reg], ws[i].0) == ws[i].1
    decreases |ws|, 1
  {
    if i == 0 {
      FirstReadsBack(d, ws);
    } else {
      LaterReadsBack(d, ws, i);
    }
  }

  /** A later write reads back after the writes before it. */
  lemma {:induction false} LaterReadsBack(d: Device, ws: seq<(Field, bv16)>, i: int)
    requires WritesFit(ws) && Separate(ws)
    requires 0 < i < |ws|
    ensures FieldValue(SetFields(d, ws).regs[ws[i].0.reg], ws[i].0) == ws[i].1
    decreases |ws|, 0
  {
    var d', rest := SetField(d, ws[0].0, ws[0].1), ws[1..];
    assert SetFields(d, ws) == SetFields(d', rest);
    assert rest[i - 1] == ws[i];
    SetFieldsReadBack(d', rest, i - 1);
  }

  /** The first write of a series survives the writes after it. */
  lemma FirstReadsBack(d: Device, ws: seq<(Field, bv16)>)
    requires ws != [] && WritesFit(ws) && Separate(ws)
    ensures FieldValue(SetFields(d, ws).regs[ws[0].0.reg], ws[0].0) == ws[0].1
  {
    var d' := SetField(d, ws[0].0, ws[0].1);
    SetFieldsKeep(d', ws[1..], ws[0].0);
  }

  // ---------------------------------------------------------------------
  // Argument encodings
  // ---------------------------------------------------------------------

  datatype Error = ValueError(message: string)

  /** The result of a setter: on an error the device is returned as it
      was, with no bus access logged. */
  datatype Outcome = Outcome(dev: Device, error: Option<Error>)

  /** LED current in mA to its CONFIG3 code; 200 mA is not accepted. */
  function LedCurrentCode(mA: int): (c: Option<bv16>)
    ensures c.Some? <==> mA == 50 || mA == 75 || mA == 120 || mA == 140 || mA == 160 || mA == 180
    ensures c.Some? ==> c.value <= 5 && Fits(LedCurrent, c.value)
  {
    if mA == 50 then Some(0x00)
    else if mA == 75 then Some(0x01)
    else if mA == 120 then Some(0x02)
    else if mA == 140 then Some(0x03)
    else if mA == 160 then Some(0x04)
    else if mA == 180 then Some(0x05)
    else None
  }

  /** The LED current each code of the field stands for; code 6 is
      unassigned and code 7 is 200 mA. */
  function LedCurrentOf(code: bv16): Option<int> {
    match code
    case 0x00 => Some(50)
    case 0x01 => Some(75)
    case 0x02 => Some(120)
    case 0x03 => Some(140)
    case 0x04 => Some(160)
    case 0x05 => Some(180)
    case 0x07 => Some(200)
    case _ => None
  }

  /** The encoding and the table agree both ways, and no accepted current
      ever produces the 200 mA code. */
  lemma LedCurrentRoundTrip(mA: int, code: bv16)
    ensures LedCurrentCode(mA) == Some(code) ==> LedCurrentOf(code) == Some(mA)
    ensures LedCurrentOf(code) == Some(mA) && mA != 200 ==> LedCurrentCode(mA) == Some(code)
    ensures LedCurrentCode(mA) != Some(0x07)
  {
  }

  /** Duty ratio 1/X to its CONFIG1 code. */
  function DutyCode(ratio: int): (c: Option<bv16>)
    ensures c.Some? <==> ratio == 40 || ratio == 80 || ratio == 160 || ratio == 320
    ensures c.Some? ==> Fits(Duty, c.value)
  {
    if ratio == 40 then Some(0x00)
    else if ratio == 80 then Some(0x01)
    else if ratio == 160 then Some(0x02)
    else if ratio == 320 then Some(0x03)
    else None
  }

  /** The duty ratio of every code: X = 40 * 2^code. */
  function DutyOf(code: bv16): int
    requires Fits(Duty, code)
  {
    if code == 0 then 40 else if code == 1 then 80 else if code == 2 then 160 else 320
  }

  lemma DutyRoundTrip(ratio: int, code: bv16)
    requires Fits(Duty, code)
    ensures DutyCode(ratio) == Some(code) <==> DutyOf(code) == ratio
  {
  }

  /** Integration time in units of T to its CONFIG1 code. */
  function IntegrationTimeCode(t: real): (c: Option<bv16>)
    ensures c.Some? <==> t == 1.0 || t == 1.5 || t == 2.0 || t == 2.5 || t == 3.0 || t == 3.5 || t == 4.0 || t == 8.0
    ensures c.Some? ==> Fits(IntegrationTime, c.value)
  {
    if t == 1.0 then Some(0x00)
    else if t == 1.5 then Some(0x01)
    else if t == 2.0 then Some(0x02)
    else if t == 2.5 then Some(0x03)
    else if t == 3.0 then Some(0x04)
    else if t == 3.5 then Some(0x05)
    else if t == 4.0 then Some(0x06)
    else if t == 8.0 then Some(0x07)
    else None
  }

  /** The integration time of every code: steps of half a T up to 4T, then 8T. */
  function IntegrationTimeOf(code: bv16): real
    requires Fits(IntegrationTime, code)
  {
    if code == 7 then 8.0 else 1.0 + 0.5 * (code as int) as real
  }

  lemma IntegrationTimeRoundTrip(t: real, code: bv16)
    requires Fits(IntegrationTime, code)
    ensures IntegrationTimeCode(t) == Some(code) <==> IntegrationTimeOf(code) == t
  {
  }

  /** Resolution in bits to its CONFIG1 code. */
  function ResolutionCode(bits: int): (c: Option<bv16>)
    ensures c.Some? <==> bits == 12 || bits == 16
    ensures c.Some? ==> Fits(Resolution, c.value)
  {
    if bits == 12 then Some(0) else if bits == 16 then Some(1) else None
  }

  function ResolutionOf(code: bv16): int
    requires Fits(Resolution, code)
  {
    if code == 0 then 12 else 16
  }

  lemma ResolutionRoundTrip(bits: int, code: bv16)
    requires Fits(Resolution, code)
    ensures ResolutionCode(bits) == Some(code) <==> ResolutionOf(code) == bits
  {
  }

  /** Interrupt mode name to its CONFIG1 code. */
  function InterruptCode(mode: string): (c: Option<bv16>)
    ensures c.Some? <==> mode == "disabled" || mode == "closing" || mode == "away" || mode == "closing_and_away"
    ensures c.Some? ==> Fits(InterruptMode, c.value)
  {
    if mode == "disabled" then Some(0x00)
    else if mode == "closing" then Some(0x01)
    else if mode == "away" then Some(0x02)
    else if mode == "closing_and_away" then Some(0x03)
    else None
  }

  function InterruptOf(code: bv16): string
    requires Fits(InterruptMode, code)
  {
    if code == 0 then "disabled" else if code == 1 then "closing" else if code == 2 then "away"
    else "closing_and_away"
  }

  lemma InterruptRoundTrip(mode: string, code: bv16)
    requires Fits(InterruptMode, code)
    ensures InterruptCode(mode) == Some(code) <==> InterruptOf(code) == mode
  {
  }

  /** Persistence (consecutive hits) to its CONFIG1 code. */
  function PersistenceCode(n: int): (c: Option<bv16>)
    ensures c.Some? <==> 1 <= n <= 4
    ensures c.Some? ==> Fits(Persistence, c.value)
  {
    if n == 1 then Some(0x00)
    else if n == 2 then Some(0x01)
    else if n == 3 then Some(0x02)
    else if n == 4 then Some(0x03)
    else None
  }

  function PersistenceOf(code: bv16): int
    requires Fits(Persistence, code)
  {
    code as int + 1
  }

  lemma PersistenceRoundTrip(n: int, code: bv16)
    requires Fits(Persistence, code)
    ensures PersistenceCode(n) == Some(code) <==> PersistenceOf(code) == n
  {
  }

  // ---------------------------------------------------------------------
  // Setters
  // ---------------------------------------------------------------------

  /** A setter validates its argument first and raises before any bus
      access; otherwise it rewrites one field. */
  function Encoded(d: Device, f: Field, code: Option<bv16>, message: string): (r: Outcome)
    requires code.Some? ==> Fits(f, code.value)
    ensures r.error.Some? <==> code.None?
    ensures r.error.Some? ==> r.dev == d && r.error.value == ValueError(message)
    ensures r.error.None? ==> FieldWritten(d, r.dev, f, code.value) && r.dev.forced == d.forced
    ensures r.error.None? ==> r.dev.bus == d.bus + [Read(f.reg), Write(f.reg, r.dev.regs[f.reg])]
    ensures r.error.None? ==> r.dev.regs == Store(d.regs, f, code.value)
  {
    match code
    case None => Outcome(d, Some(ValueError(message)))
    case Some(c) => Outcome(SetField(d, f, c), None)
  }

  // The messages of the ValueError each setter raises.
  const LedCurrentMessage := "Current setting can only be 50 mA, 75 mA, 120 mA, 140 mA, 160 mA, or 180 mA."
  const DutyMessage := "Duty cycle setting can only be 40, 80, 160, or 320. Herin is the duty cycle ratio 1/X."
  const IntegrationTimeMessage := "Integration time setting can only be 1T, 1.5T, 2T, 2.5T, 3T, 3.5T, 4T, or 8T. See application note p5."
  const ResolutionMessage := "Resolution setting can only be 12 or 16 bit."
  const InterruptMessage := "Interrupt mode setting can only be \"disabled\", \"closing\", \"away\", or \"closing_and_away\"."
  const PersistenceMessage := "Persistence setting can only be 1, 2, 3, or 4."

  function SetLedCurrent(d: Device, mA: int): (r: Outcome)
    ensures r.error.Some? <==> LedCurrentCode(mA).None?
    ensures r.error.Some? ==> r.dev == d && r.error.value == ValueError(LedCurrentMessage)
    ensures r.error.None? ==> FieldWritten(d, r.dev, LedCurrent, LedCurrentCode(mA).value)
    ensures r.error.None? ==> r.dev.regs == Store(d.regs, LedCurrent, LedCurrentCode(mA).value)
  {
    Encoded(d, LedCurrent, LedCurrentCode(mA), LedCurrentMessage)
  }

  function SetDutyCycle(d: Device, ratio: int): (r: Outcome)
    ensures r.error.Some? <==> DutyCode(ratio).None?
    ensures r.error.Some? ==> r.dev == d && r.error.value == ValueError(DutyMessage)
    ensures r.error.None? ==> FieldWritten(d, r.dev, Duty, DutyCode(ratio).value)
    ensures r.error.None? ==> r.dev.regs == Store(d.regs, Duty, DutyCode(ratio).value)
  {
    Encoded(d, Duty, DutyCode(ratio), DutyMessage)
  }

  function SetIntegrationTime(d: Device, t: real): (r: Outcome)
    ensures r.error.Some? <==> IntegrationTimeCode(t).None?
    ensures r.error.Some? ==> r.dev == d && r.error.value == ValueError(IntegrationTimeMessage)
    ensures r.error.None? ==> FieldWritten(d, r.dev, IntegrationTime, IntegrationTimeCode(t).value)
    ensures r.error.None? ==> r.dev.regs == Store(d.regs, IntegrationTime, IntegrationTimeCode(t).value)
  {
    Encoded(d, IntegrationTime, IntegrationTimeCode(t), IntegrationTimeMessage)
  }

  function SetResolution(d: Device, bits: int): (r: Outcome)
    ensures r.error.Some? <==> ResolutionCode(bits).None?
    ensures r.error.Some? ==> r.dev == d && r.error.value == ValueError(ResolutionMessage)
    ensures r.error.None? ==> FieldWritten(d, r.dev, Resolution, ResolutionCode(bits).value)
    ensures r.error.None? ==> r.dev.regs == Store(d.regs, Resolution, ResolutionCode(bits).value)
  {
    Encoded(d, Resolution, ResolutionCode(bits), ResolutionMessage)
  }

  function SetInterruptMode(d: Device, mode: string): (r: Outcome)
    ensures r.error.Some? <==> InterruptCode(mode).None?
    ensures r.error.Some? ==> r.dev == d && r.error.value == ValueError(InterruptMessage)
    ensures r.error.None? ==> FieldWritten(d, r.dev, InterruptMode, InterruptCode(mode).value)
    ensures r.error.None? ==> r.dev.regs == Store(d.regs, InterruptMode, InterruptCode(mode).value)
  {
    Encoded(d, InterruptMode, InterruptCode(mode), InterruptMessage)
  }

  function SetPersistence(d: Device, n: int): (r: Outcome)
    ensures r.error.Some? <==> PersistenceCode(n).None?
    ensures r.error.Some? ==> r.dev == d && r.error.value == ValueError(PersistenceMessage)
    ensures r.error.None? ==> FieldWritten(d, r.dev, Persistence, PersistenceCode(n).value)
    ensures r.error.None? ==> r.dev.regs == Store(d.regs, Persistence, PersistenceCode(n).value)
  {
    Encoded(d, Persistence, PersistenceCode(n), PersistenceMessage)
  }

  // Whatever a setter accepts reads back from its field as the setting
  // that was asked for.

  lemma LedCurrentReadBack(d: Device, mA: int)
    ensures var r := SetLedCurrent(d, mA);
      r.error.None? ==> LedCurrentOf(FieldValue(r.dev.regs[Config3], LedCurrent)) == Some(mA)
  {
    if LedCurrentCode(mA).Some? { LedCurrentRoundTrip(mA, LedCurrentCode(mA).value); }
  }

  lemma DutyReadBack(d: Device, ratio: int)
    ensures var r := SetDutyCycle(d, ratio);
      r.error.None? ==> DutyOf(FieldValue(r.dev.regs[Config1], Duty)) == ratio
  {
    if DutyCode(ratio).Some? { DutyRoundTrip(ratio, DutyCode(ratio).value); }
  }

  lemma IntegrationTimeReadBack(d: Device, t: real)
    ensures var r := SetIntegrationTime(d, t);
      r.error.None? ==> IntegrationTimeOf(FieldValue(r.dev.regs[Config1], IntegrationTime)) == t
  {
    if IntegrationTimeCode(t).Some? { IntegrationTimeRoundTrip(t, IntegrationTimeCode(t).value); }
  }

  lemma ResolutionReadBack(d: Device, bits: int)
    ensures var r := SetResolution(d, bits);
      r.error.None? ==> ResolutionOf(FieldValue(r.dev.regs[Config1], Resolution)) == bits
  {
    if ResolutionCode(bits).Some? { ResolutionRoundTrip(bits, ResolutionCode(bits).value); }
  }

  lemma InterruptReadBack(d: Device, mode: string)
    ensures var r := SetInterruptMode(d, mode);
      r.error.None? ==> InterruptOf(FieldValue(r.dev.regs[Config1], InterruptMode)) == mode
  {
    if InterruptCode(mode).Some? { InterruptRoundTrip(mode, InterruptCode(mode).value); }
  }

  lemma PersistenceReadBack(d: Device, n: int)
    ensures var r := SetPersistence(d, n);
      r.error.None? ==> PersistenceOf(FieldValue(r.dev.regs[Config1], Persistence)) == n
  {
    if PersistenceCode(n).Some? { PersistenceRoundTrip(n, PersistenceCode(n).value); }
  }

  /** `start()`: clear the shutdown bit 0 of CONFIG1. */
  function Start(d: Device): (r: Device)
    ensures r.regs[Config1] & 1 == 0
    ensures r.regs[Config1] & 0xFFFE == d.regs[Config1] & 0xFFFE
    ensures forall c :: c != Config1 ==> r.regs[c] == d.regs[c]
    ensures r.regs == Store(d.regs, PsEnable, 0)
  {
    SetField(d, PsEnable, 0)
  }

  /** `stop()`: set the shutdown bit 0 of CONFIG1. */
  function Stop(d: Device): (r: Device)
    ensures r.regs[Config1] & 1 == 1
    ensures r.regs[Config1] & 0xFFFE == d.regs[Config1] & 0xFFFE
    ensures forall c :: c != Config1 ==> r.regs[c] == d.regs[c]
    ensures r.regs == Store(d.regs, PsEnable, 1)
  {
    SetField(d, PsEnable, 1)
  }

  /** `enable_interrupt_proximity_mode()`: set bit 14 of CONFIG3. */
  function EnableInterruptProximityMode(d: Device): (r: Device)
    ensures r.regs[Config3] & 0x4000 == 0x4000
    ensures r.regs[Config3] & 0xBFFF == d.regs[Config3] & 0xBFFF
    ensures forall c :: c != Config3 ==> r.regs[c] == d.regs[c]
    ensures r.regs == Store(d.regs, ProximityMode, 1)
  {
    SetField(d, ProximityMode, 1)
  }

  /** `enable_interrupt_normal_mode()`: clear bit 14 of CONFIG3. */
  function EnableInterruptNormalMode(d: Device): (r: Device)
    ensures r.regs[Config3] & 0x4000 == 0
    ensures r.regs[Config3] & 0xBFFF == d.regs[Config3] & 0xBFFF
    ensures forall c :: c != Config3 ==> r.regs[c] == d.regs[c]
    ensures r.regs == Store(d.regs, ProximityMode, 0)
  {
    SetField(d, ProximityMode, 0)
  }

  /** `set_forced_mode(forced)`: bit 3 of CONFIG3 follows the flag, and
      the driver remembers it. */
  function SetForcedMode(d: Device, forced: bool): (r: Device)
    ensures (r.regs[Config3] & 0x0008 != 0) == forced && r.forced == forced
    ensures r.regs[Config3] & 0xFFF7 == d.regs[Config3] & 0xFFF7
    ensures forall c :: c != Config3 ==> r.regs[c] == d.regs[c]
    ensures r.regs == Store(d.regs, ForcedMode, if forced then 1 else 0)
  {
    SetField(d, ForcedMode, if forced then 1 else 0).(forced := forced)
  }

  /** `set_sunlight_cancellation(si)`: bit 0 of CONFIG3 follows the flag. */
  function SetSunlightCancellation(d: Device, si: bool): (r: Device)
    ensures (r.regs[Config3] & 0x0001 != 0) == si
    ensures r.regs[Config3] & 0xFFFE == d.regs[Config3] & 0xFFFE
    ensures forall c :: c != Config3 ==> r.regs[c] == d.regs[c]
    ensures r.regs == Store(d.regs, Sunlight, if si then 1 else 0)
  {
    SetField(d, Sunlight, if si then 1 else 0)
  }

  /** `get_data()`: in forced mode first set the trigger bit 2 of CONFIG3,
      then read the output register. The reading is what that register
      holds: the chip's measurement is an input to the model. */
  function GetData(d: Device): (r: (Device, bv16))
    ensures r.1 == d.regs[OutputData]
    ensures d.forced ==> r.0.regs[Config3] & 0x0004 == 0x0004
    ensures d.forced ==> r.0.regs[Config3] & 0xFFFB == d.regs[Config3] & 0xFFFB
    ensures d.forced ==> r.0.bus == d.bus + [Read(Config3), Write(Config3, r.0.regs[Config3]), Read(OutputData)]
    ensures !d.forced ==> r.0 == d.(bus := d.bus + [Read(OutputData)])
    ensures forall c :: c != Config3 ==> r.0.regs[c] == d.regs[c]
    ensures r.0.forced == d.forced
  {
    TriggerBit(d.regs[Config3]);
    var t := if d.forced then SetField(d, ForcedTrigger, 1) else d;
    var v := Updated(d.regs[Config3], ForcedTrigger, 1);
    LogAppend(d.bus, Read(Config3), Write(Config3, v), Read(OutputData));
    (t.(bus := t.bus + [Read(OutputData)]), t.regs[OutputData])
  }

  lemma LogAppend(log: seq<Access>, a: Access, b: Access, c: Access)
    ensures log + [a, b] + [c] == log + [a, b, c]
  {
  }

  lemma LogAppend2(log: seq<Access>, a: Access, b: Access)
    ensures log + [a] + [b] == log + [a, b]
  {
  }

  lemma TriggerBit(x: bv16)
    ensures Updated(x, ForcedTrigger, 1) & 0x0004 == 0x0004
    ensures Updated(x, ForcedTrigger, 1) & 0xFFFB == x & 0xFFFB
  {
  }

  /** `is_connected()`: the device-ID register holds 0x186. */
  function IsConnected(d: Device): (r: (Device, bool))
    ensures r.1 <==> d.regs[DeviceId] == ExpectedId
    ensures r.0 == d.(bus := d.bus + [Read(DeviceId)])
  {
    (d.(bus := d.bus + [Read(DeviceId)]), d.regs[DeviceId] == 0x186)
  }

  /** `get_interrupt_flag()`: the high byte of the INT_FLAG register. */
  function GetInterruptFlag(d: Device): (r: (Device, bv16))
    ensures r.1 < 0x100
    ensures r.1 << 8 == d.regs[IntFlag] & 0xFF00
    ensures r.0 == d.(bus := d.bus + [Read(IntFlag)])
  {
    (d.(bus := d.bus + [Read(IntFlag)]), d.regs[IntFlag] >> 8)
  }

  /** `set_low_threshold(threshold)`: a plain write, no read. */
  function SetLowThreshold(d: Device, threshold: bv16): (r: Device)
    ensures r.regs[ThresholdLow] == threshold
    ensures forall c :: c != ThresholdLow ==> r.regs[c] == d.regs[c]
    ensures r.bus == d.bus + [Write(ThresholdLow, threshold)] && r.forced == d.forced
  {
    d.(regs := d.regs[ThresholdLow := threshold], bus := d.bus + [Write(ThresholdLow, threshold)])
  }

  /** `set_high_threshold(threshold)`: a plain write, no read. */
  function SetHighThreshold(d: Device, threshold: bv16): (r: Device)
    ensures r.regs[ThresholdHigh] == threshold
    ensures forall c :: c != ThresholdHigh ==> r.regs[c] == d.regs[c]
    ensures r.bus == d.bus + [Write(ThresholdHigh, threshold)] && r.forced == d.forced
  {
    d.(regs := d.regs[ThresholdHigh := threshold], bus := d.bus + [Write(ThresholdHigh, threshold)])
  }
}

=== FILE: wrappers.dfy ===
/** Option and Result, the failure-compatible wrappers the rest of the model uses
    for Python's `None` and for raised exceptions. */
module Wrappers {

  datatype Option<+T> = None | Some(value: T) {

    /** The wrapped value, or `default` when there is none. */
    function GetOr(default: T): T {
      match this
      case Some(v) => v
      case None => default
    }
  }

  /** Either the value an operation returns or the exception it raises. */
  datatype Result<+T, +E> = Success(value: T) | Failure(error: E) {

    predicate IsFailure() {
      Failure?
    }

    function PropagateFailure<U>(): Result<U, E>
      requires Failure?
    {
      Failure(error)
    }

    function Extract(): T
      requires Success?
    {
      value
    }
  }
}
